=== FILE: README.md ===
# Image-filter API: a Dafny model of its decision logic

The repository is a small FastAPI service. It accepts an uploaded image and
applies a blur (Gaussian, bilateral, box mean, median) or an edge detector
(Sobel, Roberts, Canny). Each filter has a level preset (`/{nivel}`, levels
1..3) and a customised variant (`/customizado`). The service answers either
with a JSON body holding both images as `data:` URIs, or with a ZIP archive.

The pixel work is done by OpenCV and scikit-image. This model covers the
logic around those calls:

- the integer parameter validators;
- the preset tables, the level fallback and the even-to-odd kernel rounding;
- the ordered chain of upload checks with its HTTP statuses and messages;
- grayscale conversion, and the data-URI assembly. The data URI uses standard
  base64 (section 4 of RFC 4648) inside the `data:` scheme (RFC 2397).
- the naming and entry layout of the ZIP archive;
- the bounds and defaults of the Pydantic parameter schemas (which no endpoint
  binds; see "Left out") and the defaults of the JSON response record;
- the three exception handlers;
- what each endpoint reports as `filtro`, `nivel` and `parametros`, and the
  file names of the downloads.

Images are symbolic terms (`Raster.Image`). Every library call is a
constructor that records its input and its arguments, and `Raster.CallsFrom`
reads back the sequence of calls that produced an image. The encoder
(`cv2.imencode`), the serialiser (`json.dumps`) and the f-string rendering of
a level are parameters of the operations that use them; what `cv2.imdecode`
makes of an upload is part of the upload value.

Modules, one per source file, plus shared helpers:

| module | models |
|---|---|
| `Validacao` | `src/validacao.py` |
| `FiltrosBlur` | `src/filtros/filtros_blur.py` |
| `DeteccaoBordas` | `src/filtros/deteccao_bordas.py` |
| `Utilitarios` | `src/filtros/utilitarios.py` |
| `Esquemas`, `Parametros` | `src/modelos/esquemas.py` and the parameter dictionaries the endpoints build |
| `Principal` | `src/principal.py` |
| `Wrappers`, `Text`, `Base64`, `Raster`, `Http` | Option/Result, `str(int)`, ASCII lowering, `str.join`, RFC 4648 base64, symbolic rasters, HTTP error values |

## Model

| member | source | states |
|---|---|---|
| Validacao.ValidarKernelImpar | src/validacao.py:19-35 | passes exactly for odd k in 1..99; a failure is 400, starts with the parameter name, ends with the received value, and reports the first broken rule in the order positive, odd, at most 99 |
| Validacao.KernelOrderMatters | src/validacao.py:19-35 | 0 breaks both "positive" and "odd" and is reported as non-positive; 100 breaks both "odd" and "at most 99" and is reported as even |
| Validacao.ValidarIntervalo | src/validacao.py:51-55 | fails exactly when the value is outside [minimo, maximo], both bounds inclusive, with status 400 and the received value in the message |
| Validacao.ValidarTamanhoAberturaCanny | src/validacao.py:68-72 | passes exactly for 3, 5 and 7; otherwise 400 with the received value |
| Validacao.ValidarOrdemLimiaresCanny | src/validacao.py:86-90 | fails exactly when limiar2 <= limiar1, with status 400 |
| Validacao.EqualThresholdsRejected | src/validacao.py:86 | equal thresholds are rejected |
| Validacao.ReceivedIsInjective | src/validacao.py:22 | the "(recebido: v)" suffix identifies the received value: different values give different messages |
| FiltrosBlur.ImparAcima | src/filtros/filtros_blur.py:24-27 | the rounded kernel is odd and is k or k+1 |
| FiltrosBlur.ImparAcimaIsLeastOdd | src/filtros/filtros_blur.py:24-27 | the rounded kernel is the least odd number >= k |
| FiltrosBlur.ImparAcimaKeepsOdd | src/filtros/filtros_blur.py:24-27 | an odd kernel is left unchanged |
| FiltrosBlur.ImparAcimaIdempotent | src/filtros/filtros_blur.py:24-27 | rounding twice equals rounding once |
| FiltrosBlur.FiltroGaussiano | src/filtros/filtros_blur.py:5-29 | one GaussianBlur of the input with sigma forwarded, and width and height each rounded independently to odd |
| FiltrosBlur.FiltroBilateral | src/filtros/filtros_blur.py:32-50 | one bilateralFilter of the input with d, sigma_cor and sigma_espaco forwarded unchanged |
| FiltrosBlur.FiltroMedia | src/filtros/filtros_blur.py:53-69 | one box blur of the input with both kernel sizes forwarded unchanged, with no parity adjustment |
| FiltrosBlur.FiltroMediana | src/filtros/filtros_blur.py:72-87 | one medianBlur of the input with the size rounded to odd |
| FiltrosBlur.EvenKernelHandling | src/filtros/filtros_blur.py:24-27 | a 4x6 Gaussian becomes 5x7 and a median of 4 becomes 5, while a 4x6 mean stays 4x6 |
| FiltrosBlur.NivelEfetivo | src/filtros/filtros_blur.py:118 | the level actually used is in 1..3: the given level when it is a key, level 2 otherwise |
| FiltrosBlur.GetOuNivel2 | src/filtros/filtros_blur.py:118 | `dict.get(nivel, table[2])`: the entry for a present key, the level-2 entry for a missing one |
| FiltrosBlur.TablesHaveThreeLevels | src/filtros/filtros_blur.py:91-113 | every preset table has exactly the keys 1, 2 and 3 |
| FiltrosBlur.AplicarGaussianoNivel | src/filtros/filtros_blur.py:116-119 | applies the Gaussian with the preset of the effective level |
| FiltrosBlur.AplicarBilateralNivel | src/filtros/filtros_blur.py:122-125 | applies the bilateral filter with the preset of the effective level |
| FiltrosBlur.AplicarMediaNivel | src/filtros/filtros_blur.py:128-131 | applies the mean filter with the preset of the effective level |
| FiltrosBlur.AplicarMedianaNivel | src/filtros/filtros_blur.py:134-137 | applies the median filter with the preset of the effective level |
| FiltrosBlur.GaussianPresetsOdd | src/filtros/filtros_blur.py:91-95 | the Gaussian presets are square, odd and have sigma 0, so rounding leaves them unchanged |
| FiltrosBlur.MedianaAndBilateralPresetShape | src/filtros/filtros_blur.py:97-113 | median presets are odd; bilateral presets have sigma_cor = sigma_espaco |
| FiltrosBlur.PresetsGrowWithLevel | src/filtros/filtros_blur.py:91-113 | for every filter the preset size strictly increases with the level |
| DeteccaoBordas.BordaSobel | src/filtros/deteccao_bordas.py:7-32 | a 2-D result of the input's size, made by grayscale conversion (only for a colour input) and then the Sobel step |
| DeteccaoBordas.BordaRoberts | src/filtros/deteccao_bordas.py:35-56 | a 2-D result of the input's size, made by grayscale conversion (only for a colour input) and then the Roberts step |
| DeteccaoBordas.BordaCanny | src/filtros/deteccao_bordas.py:59-96 | Canny on the grayscale image, pre-blurred 5x5 exactly when aplicar_blur holds, with both thresholds and the aperture forwarded unvalidated |
| DeteccaoBordas.CannyCallSequence | src/filtros/deteccao_bordas.py:80-94 | on a colour input the calls are gray, blur, Canny (or gray, Canny without blur) |
| DeteccaoBordas.AplicarCannyNivel | src/filtros/deteccao_bordas.py:107-119 | runs borda_canny with the preset of the effective level, and always with the pre-blur |
| DeteccaoBordas.CannyPresetsPassValidation | src/filtros/deteccao_bordas.py:100-104 | three levels; every preset passes the validators of `validacao.py` (thresholds within 0..255, limiar2 above limiar1, an accepted aperture), has aperture 3 and limiar2 = limiar1 + 100, and blur on |
| DeteccaoBordas.CannyThresholdsGrowWithLevel | src/filtros/deteccao_bordas.py:100-104 | both thresholds strictly increase with the level |
| Utilitarios.Extensao | src/filtros/utilitarios.py:34 | the checked extension is lower-case, and is empty or starts with '.' |
| Utilitarios.SplitextExt | src/filtros/utilitarios.py:34 | the extension `os.path.splitext` returns is empty or a suffix of the name starting with '.' |
| Utilitarios.Centesimos | src/filtros/utilitarios.py:54-58 | the hundredths the 413 message prints are the nearest to len/1048576, the even one on a tie |
| Utilitarios.FixedTwo | src/filtros/utilitarios.py:58 | the size rendered as whole part, '.', and two digits of those hundredths |
| Utilitarios.ExcedeTamanho | src/filtros/utilitarios.py:54-55 | the float comparison len/1048576 > 10 holds exactly when the length exceeds 10 MiB |
| Utilitarios.ChecarUpload | src/filtros/utilitarios.py:26-79 | an accepted upload is the decoded 3-channel raster, at least 10x10; a rejection names a check the upload really fails |
| Utilitarios.ProcessarImagemUpload | src/filtros/utilitarios.py:12-87 | accepts exactly what the chain of upload checks accepts; a rejection carries the failing check's status and message |
| Utilitarios.UploadReportsFirstFault | src/filtros/utilitarios.py:26-87 | the upload is accepted iff no check fails; otherwise the error is the first failing check in the order name, extension, read, empty, size, decode error, undecodable, too small |
| Utilitarios.FirstUploadFaultCases | src/filtros/utilitarios.py:26-77 | the first failing check written out as the if-cascade of the source |
| Utilitarios.UploadStatuses | src/filtros/utilitarios.py:27-87 | a rejection is 413 iff it comes from the size check, 500 iff the read or the decoder raised, and 400 in every other case |
| Utilitarios.SizeLimitBoundary | src/filtros/utilitarios.py:53-59 | exactly 10 MiB is accepted, and one byte more is rejected with 413 |
| Utilitarios.SplitextLower | src/filtros/utilitarios.py:34 | splitext commutes with lowering |
| Utilitarios.ComponentHasNonDotLower | src/filtros/utilitarios.py:34 | lowering does not change whether the last path component has a non-dot character |
| Utilitarios.ExtensionCheckIgnoresCase | src/filtros/utilitarios.py:33-36 | two names equal up to case get the same extension and the same accept/reject decision |
| Utilitarios.SplitextOfDottedName | src/filtros/utilitarios.py:34 | for `stem.ext` (stem not ending in '.', no '/' in either, no '.' in ext) the extension is `.ext` |
| Utilitarios.ExtensionOfDottedName | src/filtros/utilitarios.py:34 | the checked extension of `stem.ext` is `.ext` lowered |
| Utilitarios.SplitextOfDotfile | src/filtros/utilitarios.py:34 | a leading dot is not an extension: `.png` has an empty extension |
| Utilitarios.DotfileHasNoExtension | src/filtros/utilitarios.py:33-36 | an upload named `.png` fails the extension check |
| Utilitarios.ConverterParaCinza | src/filtros/utilitarios.py:90-102 | the result is 2-D and keeps the input's size; one BGR2GRAY call for a 3-D input, the identity for a 2-D input |
| Utilitarios.ConverterParaCinzaIdempotent | src/filtros/utilitarios.py:100-102 | converting twice equals converting once |
| Utilitarios.ParaTresCanais | src/filtros/utilitarios.py:121-122 | the encoded raster is 3-D and keeps the size; a 3-D input is kept as it is, and a 2-D input gets exactly one GRAY2BGR call |
| Utilitarios.CodecBase64 | src/filtros/utilitarios.py:125-131 | a lowered "jpg"/"jpeg" selects `.jpg` at quality 95, and anything else selects `.png` |
| Utilitarios.MimeType | src/filtros/utilitarios.py:125-131 | the MIME type is image/jpeg exactly for a lowered "jpg"/"jpeg", and image/png otherwise |
| Utilitarios.ImagemParaBase64 | src/filtros/utilitarios.py:105-149 | succeeds iff the encoder returns a buffer, and then gives the data URI of those bytes under the matching MIME type; a false encoder result or an exception gives the two 500 messages |
| Utilitarios.DataUri | src/filtros/utilitarios.py:140-141 | the URI starts with `data:<mime>;base64,` and its payload decodes back to exactly the encoded bytes |
| Utilitarios.NomeZip | src/filtros/utilitarios.py:183-186 | `filtro_<name>_nivel<level>.zip` when the level is truthy, `filtro_<name>_customizado.zip` otherwise |
| Utilitarios.CodecZip | src/filtros/utilitarios.py:179 | the archive codec spells jpeg and jpg as `.jpg` and keeps any other format |
| Utilitarios.ZipArquivo.constructor | src/filtros/utilitarios.py:194 | a new archive at the given path, with no entries |
| Utilitarios.ZipArquivo.WriteStr | src/filtros/utilitarios.py:199 | appends one entry after the existing ones |
| Utilitarios.ZipErro | src/filtros/utilitarios.py:213-217 | any exception inside the archive helper becomes a 500 whose detail starts with `Erro ao criar arquivo ZIP: ` |
| Utilitarios.CriarZipResposta | src/filtros/utilitarios.py:152-217 | the archive path is `temp/` plus the name; it succeeds iff both encodings and the serialisation succeed, and then holds exactly original, filtered and info.json, in that order, with the caller's format as entry extension; a false encoder result, an encoder exception or a serialiser exception is the matching 500 and leaves the entries written before it |
| Utilitarios.ZipJpegSpelling | src/filtros/utilitarios.py:179 | the archive codec for "jpeg" and "jpg" is `.jpg`, and for "png" it is `.png` (the entry names keep the caller's spelling, which `CriarZipResposta` states) |
| Esquemas.RespostaDefaults | src/modelos/esquemas.py:5-12 | a response given only its four required fields has `nivel` and `parametros` None |
| Esquemas.GaussianoValido | src/modelos/esquemas.py:17-19 | kernel width and height at least 1, sigma at least 0 |
| Esquemas.BilateralValido | src/modelos/esquemas.py:24-26 | d, sigma_cor and sigma_espaco each at least 1 |
| Esquemas.MediaValido | src/modelos/esquemas.py:31-32 | kernel width and height at least 1 |
| Esquemas.MedianaValido | src/modelos/esquemas.py:37 | size at least 1 |
| Esquemas.CannyValido | src/modelos/esquemas.py:42-44 | both thresholds within 0..255, the aperture within 3..7; `aplicar_blur` unconstrained |
| Esquemas.ParametrosValidos | src/modelos/esquemas.py:15-45 | a parameter set satisfies the schema of its own filter |
| Esquemas.SchemaBoundsAreTight | src/modelos/esquemas.py:17-44 | every bound is accepted at its value and rejected one step past it, field by field |
| Esquemas.DefaultsAreValid | src/modelos/esquemas.py:15-45 | the defaults are Gaussian (5, 5, 0), bilateral (9, 75, 75), box (3, 3), median 3 and Canny (100, 200, 3, blur on), and each satisfies its own schema's bounds |
| Esquemas.CannyDefaultsPassValidators | src/modelos/esquemas.py:42-45 | the Canny defaults also pass the aperture and threshold-order validators |
| Esquemas.ApertureSchemaIsWeaker | src/modelos/esquemas.py:44 | every validator-accepted aperture is schema-valid, and the schema-valid apertures the validator rejects are exactly 4 and 6 |
| Esquemas.EvenKernelsAreSchemaValid | src/modelos/esquemas.py:17-18 | every positive kernel size, even or odd, is schema-valid for the Gaussian and the median, although an even one fails the kernel validator |
| Esquemas.PresetsSatisfySchemas | src/modelos/esquemas.py:15-45 | every level preset of every filter satisfies that filter's schema |
| Principal.HttpExceptionHandler | src/principal.py:83-89 | keeps the status and returns the detail as `mensagem` |
| Principal.LocTexts | src/principal.py:97 | one rendered location item per item of `loc`, in order |
| Principal.FormatIssue | src/principal.py:97-99 | one error rendered as its location items joined with " -> ", then ": " and the message |
| Principal.FormattedIssues | src/principal.py:95-99 | one formatted line per validation error, in order |
| Principal.ValidationExceptionHandler | src/principal.py:92-106 | the loop builds status 422 and the message `Erro de validação: ` followed by the formatted errors joined with "; " |
| Principal.MensagemValidacao | src/principal.py:102 | the 422 message: the prefix, then the formatted errors joined with "; " |
| Principal.MensagemValidacaoShape | src/principal.py:102 | the message always starts with the prefix; with no errors it is just the prefix, and with one error it is the prefix plus that error |
| Principal.MensagemValidacaoSnoc | src/principal.py:102 | one more error appends "; " and that error to the message |
| Principal.FormatIssueExample | src/principal.py:97-99 | the location ["body", 0, "nivel"] with message "erro" is rendered `body -> 0 -> nivel: erro` |
| Principal.GenericExceptionHandler | src/principal.py:109-116 | status 500, and the message is `Erro interno do servidor: ` followed by the exception text |
| Principal.NomeFiltro | src/principal.py:964-967 | the path name of each filter |
| Principal.NomeFiltroInjective | src/principal.py:964-967 | different filters have different names |
| Principal.FormatsAgreeOnCodec | src/principal.py:50-54 | for every output format the archive path and the base64 path pass `cv2.imencode` the same extension, and only png yields image/png |
| Principal.FiltroDe | src/principal.py:125-523 | a custom parameter set always belongs to one of the five parametrised filters, never Sobel or Roberts |
| Principal.FiltrarNivel | src/principal.py:542-930 | the image a level endpoint computes (borda_sobel, borda_roberts or the filter's `aplicar_*_nivel`) keeps the input's size; it is 2-D for the edge detectors and keeps the input's channels for the blurs |
| Principal.FiltrarCustom | src/principal.py:137-496 | the image a custom endpoint computes with the submitted parameters keeps the input's size; it is 2-D for Canny and keeps the input's channels for the blurs |
| Principal.ParametrosDoNivel | src/principal.py:671 | the level endpoints of Sobel and Roberts report no `parametros`; the others report a parameter set of their own filter |
| Principal.ReportedPresetReproducesFilter | src/principal.py:660-671 | for the five parametrised filters, the reported preset, applied as custom parameters, produces the same image as the level endpoint |
| Principal.ReportedPresetIsSchemaValid | src/principal.py:671 | every reported preset satisfies its filter's schema |
| Principal.SobelRobertsIgnoreLevel | src/principal.py:542 | Sobel and Roberts give the same image at every level |
| Principal.CustomReportsSubmittedSize | src/principal.py:147-151 | a custom Gaussian or median with an even size k runs with k+1, while a successful response reports the submitted parameters, size k |
| Principal.Responder | src/principal.py:136-160 | errors come first from the upload, then from the original's encoding, then from the filtered image's; on success the record holds both URIs and the given metadata |
| Principal.EndpointNivel | src/principal.py:532-553 | a level endpoint reports its filter's name, the level, and the preset of that level (none for Sobel and Roberts); an upload error passes through unchanged; after an accepted upload it succeeds iff the original and the level-filtered image both encode, and then carries their two data URIs |
| Principal.EndpointCustom | src/principal.py:125-160 | a custom endpoint reports the submitted parameters and no level; an upload error passes through unchanged; after an accepted upload it succeeds iff the original and the custom-filtered image both encode, and then carries their two data URIs |
| Principal.DownloadNivel | src/principal.py:556-586 | an upload error passes through with no archive; after an accepted upload it succeeds iff the original, the level-filtered image and the metadata (level, preset, level description) all encode, and then serves the archive `filtro_<name>_nivel<level>.zip` under that same name, holding exactly those three entries; otherwise it is the archive helper's 500 for the first failure, and the archive keeps the entries written before it |
| Principal.DownloadCustom | src/principal.py:162-205 | an upload error passes through with no archive; after an accepted upload it succeeds iff the original, the custom-filtered image and the metadata (submitted parameters, no level, custom description) all encode, and then holds exactly those three entries in `filtro_<name>_customizado_customizado.zip` while offering `filtro_<name>_customizado.zip`; otherwise it is the archive helper's 500 for the first failure, and the archive keeps the entries written before it |
| Principal.DescricaoNivel | src/principal.py:576-940 | the `descricao` of each level download |
| Principal.DescricaoCustom | src/principal.py:195-513 | the `descricao` of each custom download, defined for the five filters that have a custom endpoint |
| Principal.DescricaoNivelInjective | src/principal.py:576-940 | the description of a level download identifies the filter |
| Principal.CustomDownloadNameDiffers | src/principal.py:198-205 | for every filter the offered name of a custom download differs from its archive's name on disk |
| Principal.Raiz | src/principal.py:957-970 | the root document: message, version 1.0.0, `/docs`, the seven filter names, levels 1..3 and the custom-endpoint flag |
| Principal.RaizListsEverything | src/principal.py:957-970 | the root lists every filter by name once, in enum order, and exactly the levels 1..3 |
| Base64.Encode | src/filtros/utilitarios.py:140 | `base64.b64encode`, group by group (its properties are the lemmas below) |
| Base64.DecodeQuad | src/filtros/utilitarios.py:140 | a quantum decodes to one to three bytes |
| Base64.DecodeEncode | src/filtros/utilitarios.py:140 | standard base64 decoding inverts `base64.b64encode` |
| Base64.QuadCanonical | src/filtros/utilitarios.py:140 | a quantum that decodes (pad bits zero) is the encoding of its bytes |
| Base64.EncodeDecode | src/filtros/utilitarios.py:140 | every text the decoder accepts is the encoding of what it decodes to, so the encoding of a buffer is unique |
| Base64.EncodeShape | src/filtros/utilitarios.py:140 | the encoding has 4 characters per started group of 3 bytes (so its length is a multiple of 4), all from the standard alphabet or '=' |
| Base64.EncodeInjective | src/filtros/utilitarios.py:140 | different buffers give different payloads |
| Text.LowerIdempotent | src/filtros/utilitarios.py:34 | lowering a lowered name changes nothing |
| Text.ParseShow | src/validacao.py:22 | `str(int)` is read back as the same integer |

## Left out

- Pixel transforms: `cvtColor`, `GaussianBlur`, `bilateralFilter`, `blur`, `medianBlur`, `Canny`, and scikit-image `sobel_h`, `sobel_v` and `roberts` are foreign library calls. They are symbolic constructors here, and nothing is claimed about pixels.
- Library failures inside the transforms (an OpenCV exception on an invalid kernel, for instance) are not modelled. They would reach the catch-all 500 handler.
- The Sobel/Roberts magnitude normalisation (`hypot` and division by the maximum) is floating point. It appears only as the final `Sobel`/`Roberts` step.
- The float/uint8 conversion at the start of `borda_canny` is numpy arithmetic and is left out.
- `cv2.imencode` (PNG/JPEG, quality 95) is an opaque byte producer, the `encode` parameter: it returns a buffer, returns false, or raises. `json.dumps` is the `dumps` parameter: it returns the metadata text or raises; the text itself (indentation, non-ASCII output) is not modelled.
- `cv2.imdecode` is not a parameter: each upload value carries what decoding it gives (a raster of some size, no image, or an exception).
- The ZIP container format and its DEFLATE compression are not modelled: the archive is its ordered list of entries.
- File-system and scheduling work is not modelled: `os.makedirs`, the writing of `temp/`, `limpar_arquivo_temporario`, `BackgroundTasks` and streaming by `FileResponse`.
- Framework plumbing is not modelled: FastAPI routing and form/query binding, CORS setup, logging, the async `arquivo.read()` (an input value here), the uvicorn bootstrap and the clock. `tempo_ms` is a parameter.
- The f-string rendering of a `NivelFiltro` value depends on the Python version. It is the `render` parameter, and only the agreement between the two renderings of one value is stated.
- `src/exceptions.py` is a plain exception hierarchy with no logic and no callers in the modelled code, and is not part of this model.
- Validacao: the validators are not called by any endpoint, so they are modelled standalone.
- Esquemas: no endpoint binds the `Parametros*` schemas. `principal.py` imports only `RespostaFiltroJSON`, and the custom endpoints read plain form fields with no bounds, so out-of-range values such as a kernel width of 0 or a threshold of 300 reach OpenCV. The schema bounds are modelled standalone, and `EndpointCustom` takes unconstrained integers.
- Text.LowerChar: lowers ASCII letters only. `str.lower` also folds non-ASCII letters, and that is not modelled.
- Utilitarios.SplitextExt: the upload's file name is read with POSIX path rules (`posixpath.splitext`). On Windows, `ntpath.splitext` also ends the last component at a backslash and at a drive colon, and that is not modelled.
- Utilitarios.Upload: an empty `filename` stands for both a missing and an empty file name. Both fail the first check the same way.
- Utilitarios.FixedTwo: the `.2f` rendering of the size in the 413 message rounds the exact quotient len/1048576, half to even. This is what Python prints as long as that quotient is exact as a double, which holds for every length below 2^53 bytes.
- Principal.Responder: a filter endpoint's JSON number formatting (`0` against `0.0` for an integer-valued float) is not modelled: `tempo_ms` and `sigma` are reals.

=== FILE: Base64.dfy ===
/**
 * Standard base64 as defined in section 4 of RFC 4648 (the alphabet
 * A-Z a-z 0-9 + /, with '=' padding), which Python's `base64.b64encode`
 * produces. `Decode` is the partner used to state what an encoding carries.
 */
module Base64 {
  import opened Wrappers

  type byte = x: int | 0 <= x < 256
  type sextet = x: int | 0 <= x < 64

  /** Value i of the base64 alphabet (Table 1 of RFC 4648). */
  function CharOf(i: sextet): (c: char)
    ensures c != '='
  {
    if i < 26 then ('A' as int + i) as char
    else if i < 52 then ('a' as int + (i - 26)) as char
    else if i < 62 then ('0' as int + (i - 52)) as char
    else if i == 62 then '+'
    else '/'
  }

  /** The value of an alphabet character; None for '=' and every character outside the alphabet. */
  function IndexOf(c: char): (r: Option<sextet>)
    ensures r.Some? ==> CharOf(r.value) == c
  {
    if 'A' <= c <= 'Z' then Some(c as int - 'A' as int)
    else if 'a' <= c <= 'z' then Some(c as int - 'a' as int + 26)
    else if '0' <= c <= '9' then Some(c as int - '0' as int + 52)
    else if c == '+' then Some(62)
    else if c == '/' then Some(63)
    else None
  }

  lemma IndexOfCharOf(i: sextet)
    ensures IndexOf(CharOf(i)) == Some(i)
  {
  }

  predicate IsBase64Char(c: char) {
    IndexOf(c).Some? || c == '='
  }

  /** Three bytes, 24 bits, become four characters. */
  function EncodeGroup(a: byte, b: byte, c: byte): string {
    [CharOf(a / 4), CharOf((a % 4) * 16 + b / 16), CharOf((b % 16) * 4 + c / 64), CharOf(c % 64)]
  }

  /** A final single byte: two characters and "==". */
  function EncodeTail1(a: byte): string {
    [CharOf(a / 4), CharOf((a % 4) * 16), '=', '=']
  }

  /** A final pair of bytes: three characters and "=". */
  function EncodeTail2(a: byte, b: byte): string {
    [CharOf(a / 4), CharOf((a % 4) * 16 + b / 16), CharOf((b % 16) * 4), '=']
  }

  /** `base64.b64encode(data).decode()`. */
  function Encode(data: seq<byte>): string
    decreases |data|
  {
    if |data| == 0 then ""
    else if |data| == 1 then EncodeTail1(data[0])
    else if |data| == 2 then EncodeTail2(data[0], data[1])
    else EncodeGroup(data[0], data[1], data[2]) + Encode(data[3..])
  }

  /**
   * Four characters per started group of three bytes, so the length is a
   * multiple of 4, and every character is from the alphabet or is '='.
   */
  lemma {:induction false} EncodeShape(data: seq<byte>)
    ensures |Encode(data)| == 4 * ((|data| + 2) / 3)
    ensures forall i :: 0 <= i < |Encode(data)| ==> IsBase64Char(Encode(data)[i])
    decreases |data|
  {
    if |data| == 1 {
      IndexOfCharOf(data[0] / 4);
      IndexOfCharOf((data[0] % 4) * 16);
    } else if |data| == 2 {
      IndexOfCharOf(data[0] / 4);
      IndexOfCharOf((data[0] % 4) * 16 + data[1] / 16);
      IndexOfCharOf((data[1] % 16) * 4);
    } else if |data| >= 3 {
      var a, b, c, rest := data[0], data[1], data[2], data[3..];
      var q := EncodeGroup(a, b, c);
      IndexOfCharOf(a / 4);
      IndexOfCharOf((a % 4) * 16 + b / 16);
      IndexOfCharOf((b % 16) * 4 + c / 64);
      IndexOfCharOf(c % 64);
      assert forall i :: 0 <= i < 4 ==> IsBase64Char(q[i]);
      EncodeShape(rest);
      assert Encode(data) == q + Encode(rest);
      assert (|data| + 2) / 3 == (|rest| + 2) / 3 + 1;
    }
  }

  /**
   * Decodes one four-character quantum, which may end in "=" or "==". The
   * bits a padded quantum leaves over must be zero (section 3.5 of RFC 4648),
   * so every byte string has exactly one encoding.
   */
  function DecodeQuad(q: string): (r: Option<seq<byte>>)
    requires |q| == 4
    ensures r.Some? ==> 1 <= |r.value| <= 3
  {
    var i0, i1 := IndexOf(q[0]), IndexOf(q[1]);
    if i0.None? || i1.None? then None
    else if q[2] == '=' && q[3] == '=' then
      if i1.value % 16 != 0 then None
      else Some([i0.value * 4 + i1.value / 16])
    else
      var i2 := IndexOf(q[2]);
      if i2.None? then None
      else if q[3] == '=' then
        if i2.value % 4 != 0 then None
        else Some([i0.value * 4 + i1.value / 16, (i1.value % 16) * 16 + i2.value / 4])
      else
        var i3 := IndexOf(q[3]);
        if i3.None? then None
        else Some([i0.value * 4 + i1.value / 16, (i1.value % 16) * 16 + i2.value / 4, (i2.value % 4) * 64 + i3.value])
  }

  /** Decodes a whole text; padding is accepted only in the last quantum. */
  function Decode(s: string): Option<seq<byte>>
    decreases |s|
  {
    if |s| == 0 then Some([])
    else if |s| < 4 then None
    else
      match DecodeQuad(s[..4])
      case None => None
      case Some(g) =>
        if |s| > 4 && |g| < 3 then None
        else
          match Decode(s[4..])
          case None => None
          case Some(rest) => Some(g + rest)
  }

  lemma GroupRoundTrip(a: byte, b: byte, c: byte)
    ensures DecodeQuad(EncodeGroup(a, b, c)) == Some([a, b, c])
  {
    var q := EncodeGroup(a, b, c);
    IndexOfCharOf(a / 4);
    IndexOfCharOf((a % 4) * 16 + b / 16);
    IndexOfCharOf((b % 16) * 4 + c / 64);
    IndexOfCharOf(c % 64);
    assert ((a % 4) * 16 + b / 16) / 16 == a % 4;
    assert ((a % 4) * 16 + b / 16) % 16 == b / 16;
    assert ((b % 16) * 4 + c / 64) / 4 == b % 16;
    assert ((b % 16) * 4 + c / 64) % 4 == c / 64;
  }

  lemma Tail1RoundTrip(a: byte)
    ensures DecodeQuad(EncodeTail1(a)) == Some([a])
  {
    IndexOfCharOf(a / 4);
    IndexOfCharOf((a % 4) * 16);
    assert ((a % 4) * 16) / 16 == a % 4;
  }

  lemma Tail2RoundTrip(a: byte, b: byte)
    ensures DecodeQuad(EncodeTail2(a, b)) == Some([a, b])
  {
    IndexOfCharOf(a / 4);
    IndexOfCharOf((a % 4) * 16 + b / 16);
    IndexOfCharOf((b % 16) * 4);
    assert ((a % 4) * 16 + b / 16) / 16 == a % 4;
    assert ((a % 4) * 16 + b / 16) % 16 == b / 16;
    assert ((b % 16) * 4) / 4 == b % 16;
  }

  /** A text of exactly one quantum decodes as that quantum. */
  lemma DecodeSingleQuad(q: string)
    requires |q| == 4 && DecodeQuad(q).Some?
    ensures Decode(q) == DecodeQuad(q)
  {
    assert q[..4] == q;
    assert q[4..] == [];
    assert DecodeQuad(q).value + [] == DecodeQuad(q).value;
  }

  /** A full quantum followed by a decodable text decodes piecewise. */
  lemma DecodeFullQuadThen(q: string, rest: string, x: seq<byte>, y: seq<byte>)
    requires |q| == 4 && DecodeQuad(q) == Some(x) && |x| == 3
    requires Decode(rest) == Some(y)
    ensures Decode(q + rest) == Some(x + y)
  {
    var s := q + rest;
    assert s[..4] == q;
    assert s[4..] == rest;
  }

  /** One or two bytes encode to a single padded quantum that decodes back to them. */
  lemma DecodeEncodeShort(data: seq<byte>)
    requires 1 <= |data| <= 2
    ensures Decode(Encode(data)) == Some(data)
  {
    if |data| == 1 {
      var q := EncodeTail1(data[0]);
      assert Encode(data) == q;
      Tail1RoundTrip(data[0]);
      DecodeSingleQuad(q);
      assert [data[0]] == data;
    } else {
      var q := EncodeTail2(data[0], data[1]);
      assert Encode(data) == q;
      Tail2RoundTrip(data[0], data[1]);
      DecodeSingleQuad(q);
      assert [data[0], data[1]] == data;
    }
  }

  /** The first step of `Encode` on three or more bytes. */
  lemma EncodeCons(data: seq<byte>)
    requires |data| >= 3
    ensures Encode(data) == EncodeGroup(data[0], data[1], data[2]) + Encode(data[3..])
  {
  }

  /** An encoded group in front of a decodable text decodes to the group's bytes first. */
  lemma DecodeAfterGroup(x: seq<byte>, t: string, y: seq<byte>)
    requires |x| == 3 && Decode(t) == Some(y)
    ensures Decode(EncodeGroup(x[0], x[1], x[2]) + t) == Some(x + y)
  {
    GroupRoundTrip(x[0], x[1], x[2]);
    assert [x[0], x[1], x[2]] == x;
    DecodeFullQuadThen(EncodeGroup(x[0], x[1], x[2]), t, x, y);
  }

  /** Decoding undoes encoding: the base64 text carries exactly the input bytes. */
  lemma {:induction false} DecodeEncode(data: seq<byte>)
    ensures Decode(Encode(data)) == Some(data)
    decreases |data|
  {
    if 1 <= |data| <= 2 {
      DecodeEncodeShort(data);
    } else if |data| >= 3 {
      DecodeEncode(data[3..]);
      EncodeCons(data);
      DecodeAfterGroup(data[..3], Encode(data[3..]), data[3..]);
      assert data[..3] + data[3..] == data;
    }
  }

  /** The three bytes decoded from four sextets encode back to those sextets. */
  lemma RegroupFull(i0: sextet, i1: sextet, i2: sextet, i3: sextet)
    ensures Encode([i0 * 4 + i1 / 16, (i1 % 16) * 16 + i2 / 4, (i2 % 4) * 64 + i3])
         == [CharOf(i0), CharOf(i1), CharOf(i2), CharOf(i3)]
  {
    var a: byte, b: byte, c: byte := i0 * 4 + i1 / 16, (i1 % 16) * 16 + i2 / 4, (i2 % 4) * 64 + i3;
    assert a / 4 == i0 && (a % 4) * 16 + b / 16 == i1;
    assert (b % 16) * 4 + c / 64 == i2 && c % 64 == i3;
    EncodeThree(a, b, c);
  }

  /** Three bytes encode as one group. */
  lemma EncodeThree(a: byte, b: byte, c: byte)
    ensures Encode([a, b, c]) == EncodeGroup(a, b, c)
  {
    assert [a, b, c][3..] == [];
  }

  /** The two bytes decoded from three sextets, the last with its low two bits zero, encode back to them. */
  lemma RegroupTail2(i0: sextet, i1: sextet, i2: sextet)
    requires i2 % 4 == 0
    ensures Encode([i0 * 4 + i1 / 16, (i1 % 16) * 16 + i2 / 4]) == [CharOf(i0), CharOf(i1), CharOf(i2), '=']
  {
    var a, b := i0 * 4 + i1 / 16, (i1 % 16) * 16 + i2 / 4;
    assert a / 4 == i0 && (a % 4) * 16 + b / 16 == i1 && (b % 16) * 4 == i2;
  }

  /** The byte decoded from two sextets, the second with its low four bits zero, encodes back to them. */
  lemma RegroupTail1(i0: sextet, i1: sextet)
    requires i1 % 16 == 0
    ensures Encode([i0 * 4 + i1 / 16]) == [CharOf(i0), CharOf(i1), '=', '=']
  {
    var a := i0 * 4 + i1 / 16;
    assert a / 4 == i0 && (a % 4) * 16 == i1;
  }

  /** A quantum that decodes is the encoding of the bytes it decodes to. */
  lemma QuadCanonical(q: string)
    requires |q| == 4 && DecodeQuad(q).Some?
    ensures Encode(DecodeQuad(q).value) == q
  {
    var i0, i1 := IndexOf(q[0]).value, IndexOf(q[1]).value;
    var j0: int, j1: int := i0, i1;
    if q[2] == '=' && q[3] == '=' {
      assert DecodeQuad(q).value == [j0 * 4 + j1 / 16];
      RegroupTail1(i0, i1);
      assert [CharOf(i0), CharOf(i1), '=', '='] == q;
    } else {
      var i2 := IndexOf(q[2]).value;
      var j2: int := i2;
      if q[3] == '=' {
        assert DecodeQuad(q).value == [j0 * 4 + j1 / 16, (j1 % 16) * 16 + j2 / 4];
        RegroupTail2(i0, i1, i2);
        assert [CharOf(i0), CharOf(i1), CharOf(i2), '='] == q;
      } else {
        var i3 := IndexOf(q[3]).value;
        var j3: int := i3;
        assert DecodeQuad(q).value == [j0 * 4 + j1 / 16, (j1 % 16) * 16 + j2 / 4, (j2 % 4) * 64 + j3];
        RegroupFull(i0, i1, i2, i3);
        assert [CharOf(i0), CharOf(i1), CharOf(i2), CharOf(i3)] == q;
      }
    }
  }

  /**
   * Every text that decodes is the encoding of what it decodes to, so a
   * byte string has exactly one base64 text and `Decode` accepts nothing else.
   */
  lemma {:induction false} EncodeDecode(s: string)
    requires Decode(s).Some?
    ensures Encode(Decode(s).value) == s
    decreases |s|
  {
    if |s| > 0 {
      var q, t := s[..4], s[4..];
      var g := DecodeQuad(q).value;
      var y := Decode(t).value;
      assert Decode(s).value == g + y;
      QuadCanonical(q);
      if |g| == 3 {
        EncodeDecode(t);
        EncodeCons(g + y);
        assert (g + y)[3..] == y;
      } else {
        assert t == [] && y == [];
        assert g + y == g;
      }
      assert s == q + t;
    }
  }

  /** Encoding is injective: different byte strings never share a base64 text. */
  lemma EncodeInjective(x: seq<byte>, y: seq<byte>)
    ensures Encode(x) == Encode(y) ==> x == y
  {
    DecodeEncode(x);
    DecodeEncode(y);
  }
}

=== FILE: DeteccaoBordas.dfy ===
/**
 * The three edge detectors (src/filtros/deteccao_bordas.py): every detector
 * works on the grayscale raster, Canny optionally smooths it first with a
 * fixed 5x5 Gaussian, and the Canny presets fall back to level 2.
 */
module DeteccaoBordas {
  import opened Wrappers
  import opened Raster
  import opened Parametros
  import opened Utilitarios
  import opened FiltrosBlur
  import opened Validacao

  /** `borda_sobel`: the gradient magnitude of the grayscale raster. */
  function BordaSobel(img: Image): (r: Image)
    ensures Ndim(r) == 2 && Height(r) == Height(img) && Width(r) == Width(img)
    ensures Ndim(img) == 3 ==> CallsFrom(r, img) == Some([ToGray, Sobel])
    ensures Ndim(img) == 2 ==> CallsFrom(r, img) == Some([Sobel])
  {
    var gray := ConverterParaCinza(img);
    var r := SobelMagnitude(gray);
    CallsFromStep(r, img);
    assert CallsFrom(img, img) == Some([]);
    assert [] + [Sobel] == [Sobel] && [ToGray] + [Sobel] == [ToGray, Sobel];
    r
  }

  /** `borda_roberts`: the Roberts cross magnitude of the grayscale raster. */
  function BordaRoberts(img: Image): (r: Image)
    ensures Ndim(r) == 2 && Height(r) == Height(img) && Width(r) == Width(img)
    ensures Ndim(img) == 3 ==> CallsFrom(r, img) == Some([ToGray, Roberts])
    ensures Ndim(img) == 2 ==> CallsFrom(r, img) == Some([Roberts])
  {
    var gray := ConverterParaCinza(img);
    var r := RobertsMagnitude(gray);
    CallsFromStep(r, img);
    assert CallsFrom(img, img) == Some([]);
    assert [] + [Roberts] == [Roberts] && [ToGray] + [Roberts] == [ToGray, Roberts];
    r
  }

  /**
   * `borda_canny`: the thresholds and the aperture reach `cv2.Canny` as given
   * (no check here); the 5x5, sigma-0 blur is applied exactly when asked for.
   */
  function BordaCanny(img: Image, limiar1: int := 100, limiar2: int := 200, tamanhoAbertura: int := 3,
                      aplicarBlur: bool := true): (r: Image)
    ensures r.CannyEdges? && r.threshold1 == limiar1 && r.threshold2 == limiar2
      && r.apertureSize == tamanhoAbertura
    ensures aplicarBlur ==> r.src == GaussianBlur(ConverterParaCinza(img), 5, 5, 0.0)
    ensures !aplicarBlur ==> r.src == ConverterParaCinza(img)
    ensures Ndim(r) == 2 && Height(r) == Height(img) && Width(r) == Width(img)
  {
    var gray := ConverterParaCinza(img);
    var smoothed := if aplicarBlur then GaussianBlur(gray, 5, 5, 0.0) else gray;
    CannyEdges(smoothed, limiar1, limiar2, tamanhoAbertura)
  }

  /** The call sequence of `borda_canny` on a colour raster: gray, then the optional blur, then Canny. */
  lemma CannyCallSequence(img: Image, limiar1: int, limiar2: int, tamanhoAbertura: int, aplicarBlur: bool)
    requires Ndim(img) == 3
    ensures CallsFrom(BordaCanny(img, limiar1, limiar2, tamanhoAbertura, aplicarBlur), img)
      == Some(if aplicarBlur then [ToGray, Gaussian, Canny] else [ToGray, Canny])
  {
    var gray := ConverterParaCinza(img);
    var r := BordaCanny(img, limiar1, limiar2, tamanhoAbertura, aplicarBlur);
    if aplicarBlur {
      CallsFromStep(r.src, img);
      assert [ToGray] + [Gaussian] == [ToGray, Gaussian];
    }
    CallsFromStep(r, img);
    assert [ToGray, Gaussian] + [Canny] == [ToGray, Gaussian, Canny];
    assert [ToGray] + [Canny] == [ToGray, Canny];
  }

  /** `NIVEIS_CANNY`. */
  const NiveisCanny: map<int, CannyParams> := map[
    1 := CannyParams(50, 150, 3, true),
    2 := CannyParams(100, 200, 3, true),
    3 := CannyParams(150, 250, 3, true)]

  /** `aplicar_canny_nivel`: the preset of the effective level, level 2 for an unknown one. */
  function AplicarCannyNivel(img: Image, nivel: int): (r: Image)
    ensures var p := NiveisCanny[NivelEfetivo(nivel)];
      r == BordaCanny(img, p.limiar1, p.limiar2, p.tamanhoAbertura, p.aplicarBlur)
    ensures r.src.GaussianBlur?
  {
    var p := GetOuNivel2(NiveisCanny, nivel);
    BordaCanny(img, p.limiar1, p.limiar2, p.tamanhoAbertura, p.aplicarBlur)
  }

  /**
   * Every Canny preset would pass the validators of `validacao.py`: both
   * thresholds within 0..255, the second above the first, aperture 3. Each
   * preset keeps the same aperture and a fixed 100-step gap between the two
   * thresholds.
   */
  lemma CannyPresetsPassValidation()
    ensures NiveisCanny.Keys == {1, 2, 3}
    ensures forall n :: n in NiveisCanny ==>
      var p := NiveisCanny[n];
      && ValidarIntervalo(p.limiar1, 0, 255, "limiar1").Pass?
      && ValidarIntervalo(p.limiar2, 0, 255, "limiar2").Pass?
      && ValidarOrdemLimiaresCanny(p.limiar1, p.limiar2).Pass?
      && ValidarTamanhoAberturaCanny(p.tamanhoAbertura).Pass?
      && p.tamanhoAbertura == 3 && p.limiar2 == p.limiar1 + 100
      && p.aplicarBlur
  {
  }

  /** Higher levels use strictly higher hysteresis thresholds, so fewer edges survive. */
  lemma CannyThresholdsGrowWithLevel(a: int, b: int)
    requires 1 <= a < b <= 3
    ensures NiveisCanny[a].limiar1 < NiveisCanny[b].limiar1
    ensures NiveisCanny[a].limiar2 < NiveisCanny[b].limiar2
  {
  }
}

=== FILE: Esquemas.dfy ===
/**
 * The Pydantic records of src/modelos/esquemas.py: the shape of
 * `RespostaFiltroJSON`, which the JSON endpoints return, and the field bounds
 * and defaults of the five `Parametros*` schemas. No endpoint binds those
 * schemas (the custom endpoints read unbounded form fields), so they are
 * stated on their own and compared with the presets and the validators.
 */
module Esquemas {
  import opened Wrappers
  import opened Parametros
  import opened Validacao
  import opened FiltrosBlur
  import opened DeteccaoBordas

  /** `ParametrosGaussiano`: width and height at least 1, sigma at least 0. */
  predicate GaussianoValido(p: GaussianoParams) {
    p.kernelWidth >= 1 && p.kernelHeight >= 1 && p.sigma >= 0.0
  }

  /** `ParametrosBilateral`: all three at least 1. */
  predicate BilateralValido(p: BilateralParams) {
    p.d >= 1 && p.sigmaCor >= 1 && p.sigmaEspaco >= 1
  }

  /** `ParametrosMedia`: both sizes at least 1. */
  predicate MediaValido(p: MediaParams) {
    p.kernelWidth >= 1 && p.kernelHeight >= 1
  }

  /** `ParametrosMediana`: size at least 1. */
  predicate MedianaValido(p: MedianaParams) {
    p.tamanho >= 1
  }

  /** `ParametrosCanny`: both thresholds within 0..255 and the aperture within 3..7. */
  predicate CannyValido(p: CannyParams) {
    0 <= p.limiar1 <= 255 && 0 <= p.limiar2 <= 255 && 3 <= p.tamanhoAbertura <= 7
  }

  /** A `parametros` value satisfies the schema of its own filter. */
  predicate ParametrosValidos(p: Parametros) {
    match p
    case OfGaussiano(g) => GaussianoValido(g)
    case OfBilateral(b) => BilateralValido(b)
    case OfMedia(m) => MediaValido(m)
    case OfMediana(m) => MedianaValido(m)
    case OfCanny(c) => CannyValido(c)
  }

  const GaussianoPadrao: GaussianoParams := GaussianoParams(5, 5, 0.0)
  const BilateralPadrao: BilateralParams := BilateralParams(9, 75, 75)
  const MediaPadrao: MediaParams := MediaParams(3, 3)
  const MedianaPadrao: MedianaParams := MedianaParams(3)
  const CannyPadrao: CannyParams := CannyParams(100, 200, 3, true)

  /** The schema defaults, field by field, and each satisfies its own bounds. */
  lemma DefaultsAreValid()
    ensures GaussianoPadrao.kernelWidth == 5 && GaussianoPadrao.kernelHeight == 5 && GaussianoPadrao.sigma == 0.0
    ensures BilateralPadrao.d == 9 && BilateralPadrao.sigmaCor == 75 && BilateralPadrao.sigmaEspaco == 75
    ensures MediaPadrao.kernelWidth == 3 && MediaPadrao.kernelHeight == 3 && MedianaPadrao.tamanho == 3
    ensures CannyPadrao.limiar1 == 100 && CannyPadrao.limiar2 == 200 && CannyPadrao.tamanhoAbertura == 3
    ensures CannyPadrao.aplicarBlur
    ensures GaussianoValido(GaussianoPadrao) && BilateralValido(BilateralPadrao)
    ensures MediaValido(MediaPadrao) && MedianaValido(MedianaPadrao) && CannyValido(CannyPadrao)
  {
  }

  /**
   * Each bound is tight: the value at the bound is accepted and the value
   * one step past it is rejected, field by field.
   */
  lemma SchemaBoundsAreTight()
    ensures GaussianoValido(GaussianoParams(1, 1, 0.0))
    ensures !GaussianoValido(GaussianoParams(0, 1, 0.0)) && !GaussianoValido(GaussianoParams(1, 0, 0.0))
    ensures !GaussianoValido(GaussianoParams(1, 1, -0.5))
    ensures BilateralValido(BilateralParams(1, 1, 1))
    ensures !BilateralValido(BilateralParams(0, 1, 1)) && !BilateralValido(BilateralParams(1, 0, 1))
    ensures !BilateralValido(BilateralParams(1, 1, 0))
    ensures MediaValido(MediaParams(1, 1)) && !MediaValido(MediaParams(0, 1)) && !MediaValido(MediaParams(1, 0))
    ensures MedianaValido(MedianaParams(1)) && !MedianaValido(MedianaParams(0))
    ensures CannyValido(CannyParams(0, 0, 3, true)) && CannyValido(CannyParams(255, 255, 7, false))
    ensures !CannyValido(CannyParams(-1, 0, 3, true)) && !CannyValido(CannyParams(256, 0, 3, true))
    ensures !CannyValido(CannyParams(0, -1, 3, true)) && !CannyValido(CannyParams(0, 256, 3, true))
    ensures !CannyValido(CannyParams(0, 0, 2, true)) && !CannyValido(CannyParams(0, 0, 8, true))
  {
  }

  /** The Canny defaults also pass the aperture and threshold-order validators. */
  lemma CannyDefaultsPassValidators()
    ensures ValidarTamanhoAberturaCanny(CannyPadrao.tamanhoAbertura).Pass?
    ensures ValidarOrdemLimiaresCanny(CannyPadrao.limiar1, CannyPadrao.limiar2).Pass?
  {
  }

  /**
   * Whatever passes the aperture validator passes the schema's aperture bound,
   * but not the other way round: the schema admits 4 and 6.
   */
  lemma ApertureSchemaIsWeaker(t: int)
    ensures ValidarTamanhoAberturaCanny(t).Pass? ==> 3 <= t <= 7
    ensures 3 <= t <= 7 && ValidarTamanhoAberturaCanny(t).Fail? <==> t == 4 || t == 6
  {
  }

  /**
   * The schemas do not demand odd sizes: a Gaussian kernel or a median size
   * is schema-valid exactly when it is at least 1, even ones included.
   */
  lemma EvenKernelsAreSchemaValid(k: int)
    requires k >= 1
    ensures GaussianoValido(GaussianoParams(k, k, 0.0))
    ensures MedianaValido(MedianaParams(k))
    ensures k % 2 == 0 ==> !IsOdd(k) && ValidarKernelImpar(k).Fail?
  {
  }

  /** Every level preset of every filter satisfies its schema. */
  lemma PresetsSatisfySchemas()
    ensures forall n :: n in NiveisGaussiano ==> GaussianoValido(NiveisGaussiano[n])
    ensures forall n :: n in NiveisBilateral ==> BilateralValido(NiveisBilateral[n])
    ensures forall n :: n in NiveisMedia ==> MediaValido(NiveisMedia[n])
    ensures forall n :: n in NiveisMediana ==> MedianaValido(NiveisMediana[n])
    ensures forall n :: n in NiveisCanny ==> CannyValido(NiveisCanny[n])
  {
  }

  /**
   * `RespostaFiltroJSON`: four required fields and two optional ones that
   * default to None.
   */
  datatype RespostaFiltroJSON = RespostaFiltroJSON(
    imagemOriginal: string,
    imagemFiltrada: string,
    tempoMs: real,
    filtro: string,
    nivel: Option<int> := None,
    parametros: Option<Parametros> := None)

  /** A response built from the four required fields reports no level and no parameters. */
  lemma RespostaDefaults(imagemOriginal: string, imagemFiltrada: string, tempoMs: real, filtro: string)
    ensures var r := RespostaFiltroJSON(imagemOriginal, imagemFiltrada, tempoMs, filtro);
      && r.imagemOriginal == imagemOriginal && r.imagemFiltrada == imagemFiltrada
      && r.tempoMs == tempoMs && r.filtro == filtro
      && r.nivel == None && r.parametros == None
  {
  }
}

=== FILE: FiltrosBlur.dfy ===
/**
 * The four blur filters (src/filtros/filtros_blur.py): the parity correction
 * applied before the Gaussian and median calls, the unchanged forwarding of
 * the mean and bilateral parameters, the three-level preset tables and the
 * level lookups that fall back to level 2.
 */
module FiltrosBlur {
  import opened Raster
  import opened Parametros

  predicate IsOdd(k: int) {
    k % 2 == 1
  }

  /**
   * `if k % 2 == 0: k += 1`. Python's `%` floors and Dafny's is Euclidean;
   * with the divisor 2 both give 0 or 1 for every integer, negatives included.
   */
  function ImparAcima(k: int): (r: int)
    ensures IsOdd(r) && k <= r <= k + 1
  {
    if k % 2 == 0 then k + 1 else k
  }

  /** The corrected size is the least odd integer not below the requested one. */
  lemma ImparAcimaIsLeastOdd(k: int, j: int)
    requires IsOdd(j) && j >= k
    ensures ImparAcima(k) <= j
  {
  }

  lemma ImparAcimaKeepsOdd(k: int)
    requires IsOdd(k)
    ensures ImparAcima(k) == k
  {
  }

  lemma ImparAcimaIdempotent(k: int)
    ensures ImparAcima(ImparAcima(k)) == ImparAcima(k)
  {
  }

  /** `filtro_gaussiano`: width and height are each corrected to odd, independently; sigma is forwarded. */
  function FiltroGaussiano(img: Image, kernelWidth: int := 5, kernelHeight: int := 5, sigma: real := 0.0): (r: Image)
    ensures r.GaussianBlur? && r.src == img && r.sigma == sigma
    ensures IsOdd(r.kernelWidth) && kernelWidth <= r.kernelWidth <= kernelWidth + 1
    ensures IsOdd(r.kernelHeight) && kernelHeight <= r.kernelHeight <= kernelHeight + 1
  {
    GaussianBlur(img, ImparAcima(kernelWidth), ImparAcima(kernelHeight), sigma)
  }

  /** `filtro_bilateral`: the three parameters reach the library call unchanged. */
  function FiltroBilateral(img: Image, d: int := 9, sigmaCor: int := 75, sigmaEspaco: int := 75): (r: Image)
    ensures r.BilateralFilter? && r.src == img
    ensures r.d == d && r.sigmaColor == sigmaCor && r.sigmaSpace == sigmaEspaco
  {
    BilateralFilter(img, d, sigmaCor, sigmaEspaco)
  }

  /** `filtro_media`: the kernel reaches the library call unchanged, even sizes included. */
  function FiltroMedia(img: Image, kernelWidth: int := 3, kernelHeight: int := 3): (r: Image)
    ensures r.BoxBlur? && r.src == img
    ensures r.kernelWidth == kernelWidth && r.kernelHeight == kernelHeight
  {
    BoxBlur(img, kernelWidth, kernelHeight)
  }

  /** `filtro_mediana`: the single size is corrected to odd. */
  function FiltroMediana(img: Image, tamanho: int := 3): (r: Image)
    ensures r.MedianBlur? && r.src == img
    ensures IsOdd(r.ksize) && tamanho <= r.ksize <= tamanho + 1
  {
    MedianBlur(img, ImparAcima(tamanho))
  }

  /** An even size is corrected by the Gaussian and median filters and forwarded as is by the mean filter. */
  lemma EvenKernelHandling(img: Image)
    ensures FiltroGaussiano(img, 4, 6, 0.0) == GaussianBlur(img, 5, 7, 0.0)
    ensures FiltroMediana(img, 4) == MedianBlur(img, 5)
    ensures FiltroMedia(img, 4, 6) == BoxBlur(img, 4, 6)
  {
  }

  const NiveisGaussiano: map<int, GaussianoParams> := map[
    1 := GaussianoParams(5, 5, 0.0),
    2 := GaussianoParams(15, 15, 0.0),
    3 := GaussianoParams(35, 35, 0.0)]

  const NiveisBilateral: map<int, BilateralParams> := map[
    1 := BilateralParams(9, 25, 25),
    2 := BilateralParams(15, 50, 50),
    3 := BilateralParams(25, 75, 75)]

  const NiveisMedia: map<int, MediaParams> := map[
    1 := MediaParams(3, 3),
    2 := MediaParams(7, 7),
    3 := MediaParams(15, 15)]

  const NiveisMediana: map<int, MedianaParams> := map[
    1 := MedianaParams(3),
    2 := MedianaParams(7),
    3 := MedianaParams(15)]

  /** The level whose preset `dict.get(nivel, table[2])` returns from a table keyed 1, 2, 3. */
  function NivelEfetivo(nivel: int): (n: int)
    ensures 1 <= n <= 3
    ensures 1 <= nivel <= 3 ==> n == nivel
    ensures (nivel < 1 || nivel > 3) ==> n == 2
  {
    if nivel in {1, 2, 3} then nivel else 2
  }

  /** `table.get(nivel, table[2])`. */
  function GetOuNivel2<T>(table: map<int, T>, nivel: int): (p: T)
    requires 2 in table
    ensures nivel in table ==> p == table[nivel]
    ensures nivel !in table ==> p == table[2]
  {
    if nivel in table then table[nivel] else table[2]
  }

  /** Every preset table has exactly the levels 1, 2 and 3. */
  lemma TablesHaveThreeLevels()
    ensures NiveisGaussiano.Keys == NiveisBilateral.Keys == NiveisMedia.Keys == NiveisMediana.Keys == {1, 2, 3}
  {
  }

  /** `aplicar_gaussiano_nivel`: the preset of the effective level reaches the library call unchanged. */
  function AplicarGaussianoNivel(img: Image, nivel: int): (r: Image)
    ensures var p := NiveisGaussiano[NivelEfetivo(nivel)];
      r == GaussianBlur(img, p.kernelWidth, p.kernelHeight, p.sigma)
  {
    var p := GetOuNivel2(NiveisGaussiano, nivel);
    FiltroGaussiano(img, p.kernelWidth, p.kernelHeight, p.sigma)
  }

  /** `aplicar_bilateral_nivel`. */
  function AplicarBilateralNivel(img: Image, nivel: int): (r: Image)
    ensures var p := NiveisBilateral[NivelEfetivo(nivel)];
      r == BilateralFilter(img, p.d, p.sigmaCor, p.sigmaEspaco)
  {
    var p := GetOuNivel2(NiveisBilateral, nivel);
    FiltroBilateral(img, p.d, p.sigmaCor, p.sigmaEspaco)
  }

  /** `aplicar_media_nivel`. */
  function AplicarMediaNivel(img: Image, nivel: int): (r: Image)
    ensures var p := NiveisMedia[NivelEfetivo(nivel)];
      r == BoxBlur(img, p.kernelWidth, p.kernelHeight)
  {
    var p := GetOuNivel2(NiveisMedia, nivel);
    FiltroMedia(img, p.kernelWidth, p.kernelHeight)
  }

  /** `aplicar_mediana_nivel`: the median presets are odd, so the correction leaves them unchanged. */
  function AplicarMedianaNivel(img: Image, nivel: int): (r: Image)
    ensures r == MedianBlur(img, NiveisMediana[NivelEfetivo(nivel)].tamanho)
  {
    var p := GetOuNivel2(NiveisMediana, nivel);
    FiltroMediana(img, p.tamanho)
  }

  /** The Gaussian presets are square, odd, sigma 0, so parity correction does not change them. */
  lemma GaussianPresetsOdd()
    ensures forall n :: n in NiveisGaussiano ==>
      var p := NiveisGaussiano[n];
      p.kernelWidth == p.kernelHeight && IsOdd(p.kernelWidth) && p.sigma == 0.0
      && ImparAcima(p.kernelWidth) == p.kernelWidth
  {
  }

  /** The median presets are odd and every bilateral preset has equal colour and space sigmas. */
  lemma MedianaAndBilateralPresetShape()
    ensures forall n :: n in NiveisMediana ==> IsOdd(NiveisMediana[n].tamanho)
    ensures forall n :: n in NiveisBilateral ==> NiveisBilateral[n].sigmaCor == NiveisBilateral[n].sigmaEspaco
  {
  }

  /** For every filter, a higher level means a strictly larger neighbourhood. */
  lemma PresetsGrowWithLevel(a: int, b: int)
    requires 1 <= a < b <= 3
    ensures NiveisGaussiano[a].kernelWidth < NiveisGaussiano[b].kernelWidth
    ensures NiveisBilateral[a].d < NiveisBilateral[b].d
    ensures NiveisMedia[a].kernelWidth < NiveisMedia[b].kernelWidth
    ensures NiveisMediana[a].tamanho < NiveisMediana[b].tamanho
  {
  }
}

=== FILE: Http.dfy ===
/** The HTTP-shaped values the service raises and returns. */
module Http {

  /** FastAPI's `HTTPException(status_code, detail)` with a textual detail. */
  datatype HttpError = HttpError(status: int, detail: string)

  /** A `JSONResponse` whose body is the single field `{"mensagem": ...}`. */
  datatype JsonError = JsonError(status: int, mensagem: string)
}

=== FILE: Parametros.dfy ===
/**
 * The parameter sets of the five parameterised filters, with the field names
 * the service uses both in its preset dictionaries and in its `Parametros*`
 * schemas and its `parametros` response field.
 */
module Parametros {

  datatype GaussianoParams = GaussianoParams(kernelWidth: int, kernelHeight: int, sigma: real)

  datatype BilateralParams = BilateralParams(d: int, sigmaCor: int, sigmaEspaco: int)

  datatype MediaParams = MediaParams(kernelWidth: int, kernelHeight: int)

  datatype MedianaParams = MedianaParams(tamanho: int)

  datatype CannyParams = CannyParams(limiar1: int, limiar2: int, tamanhoAbertura: int, aplicarBlur: bool)

  /** The `parametros` dictionary reported in a response. */
  datatype Parametros =
    | OfGaussiano(gaussiano: GaussianoParams)
    | OfBilateral(bilateral: BilateralParams)
    | OfMedia(media: MediaParams)
    | OfMediana(mediana: MedianaParams)
    | OfCanny(canny: CannyParams)
}

=== FILE: Principal.dfy ===
/**
 * The HTTP layer (src/principal.py): the three exception handlers, and the
 * seven filters' level and custom endpoints, each in a JSON form and a ZIP
 * download form. Routing, parameter binding, timing and logging are not
 * modelled: an endpoint receives the bound upload, format and elapsed time.
 */
module Principal {
  import opened Wrappers
  import opened Text
  import opened Http
  import Raster
  import opened Parametros
  import opened Utilitarios
  import opened FiltrosBlur
  import opened DeteccaoBordas
  import opened Esquemas

  // ---------------------------------------------------------------------------
  // Exception handlers
  // ---------------------------------------------------------------------------

  /** `http_exception_handler`: the status and the detail pass through unchanged. */
  function HttpExceptionHandler(exc: HttpError): (r: JsonError)
    ensures r.status == exc.status && r.mensagem == exc.detail
  {
    JsonError(exc.status, exc.detail)
  }

  /** One element of a validation error's `loc`: a field name or a list index. */
  datatype LocItem = Key(name: string) | Index(position: int)

  /** One entry of `exc.errors()`. */
  datatype ValidationIssue = ValidationIssue(loc: seq<LocItem>, msg: string)

  /** `str(loc)`. */
  function LocText(item: LocItem): string {
    match item
    case Key(name) => name
    case Index(position) => Show(position)
  }

  /** `str(loc) for loc in error["loc"]`. */
  function LocTexts(loc: seq<LocItem>): (r: seq<string>)
    ensures |r| == |loc| && forall i :: 0 <= i < |loc| ==> r[i] == LocText(loc[i])
  {
    seq(|loc|, i requires 0 <= i < |loc| => LocText(loc[i]))
  }

  /** `f"{' -> '.join(str(loc) for loc in error['loc'])}: {error['msg']}"`. */
  function FormatIssue(issue: ValidationIssue): string {
    Join(" -> ", LocTexts(issue.loc)) + ": " + issue.msg
  }

  function FormattedIssues(issues: seq<ValidationIssue>): (r: seq<string>)
    ensures |r| == |issues| && forall i :: 0 <= i < |issues| ==> r[i] == FormatIssue(issues[i])
  {
    seq(|issues|, i requires 0 <= i < |issues| => FormatIssue(issues[i]))
  }

  const ValidacaoPrefixo: string := "Erro de validação: "

  /** The consolidated 422 message. */
  function MensagemValidacao(issues: seq<ValidationIssue>): string {
    ValidacaoPrefixo + Join("; ", FormattedIssues(issues))
  }

  /** `validation_exception_handler`: every issue is formatted, in order, and the list is joined with "; ". */
  method ValidationExceptionHandler(issues: seq<ValidationIssue>) returns (r: JsonError)
    ensures r.status == 422
    ensures r.mensagem == MensagemValidacao(issues)
  {
    var errors: seq<string> := [];
    for i := 0 to |issues|
      invariant errors == FormattedIssues(issues[..i])
    {
      var field := Join(" -> ", LocTexts(issues[i].loc));
      errors := errors + [field + ": " + issues[i].msg];
    }
    assert issues[..|issues|] == issues;
    r := JsonError(422, ValidacaoPrefixo + Join("; ", errors));
  }

  /** The message always starts with the fixed prefix, and a lone issue is reported as its own text. */
  lemma MensagemValidacaoShape(issues: seq<ValidationIssue>)
    ensures StartsWith(MensagemValidacao(issues), ValidacaoPrefixo)
    ensures issues == [] ==> MensagemValidacao(issues) == ValidacaoPrefixo
    ensures |issues| == 1 ==> MensagemValidacao(issues) == ValidacaoPrefixo + FormatIssue(issues[0])
  {
  }

  /** One more issue appends "; " and that issue's text to the message, and leaves the rest as it was. */
  lemma MensagemValidacaoSnoc(issues: seq<ValidationIssue>, issue: ValidationIssue)
    requires issues != []
    ensures MensagemValidacao(issues + [issue]) == MensagemValidacao(issues) + "; " + FormatIssue(issue)
  {
    assert FormattedIssues(issues + [issue]) == FormattedIssues(issues) + [FormatIssue(issue)];
    JoinSnoc("; ", FormattedIssues(issues), FormatIssue(issue));
  }

  /** A nested location: `body -> 0 -> nivel: erro`. */
  lemma FormatIssueExample()
    ensures FormatIssue(ValidationIssue([Key("body"), Index(0), Key("nivel")], "erro"))
      == "body -> 0 -> nivel: erro"
  {
  }

  /** `generic_exception_handler`: any other exception becomes a 500 naming it. */
  function GenericExceptionHandler(reason: string): (r: JsonError)
    ensures r.status == 500
    ensures StartsWith(r.mensagem, "Erro interno do servidor: ")
    ensures r.mensagem[|"Erro interno do servidor: "|..] == reason
  {
    var prefix := "Erro interno do servidor: ";
    assert (prefix + reason)[|prefix|..] == reason;
    JsonError(500, prefix + reason)
  }

  // ---------------------------------------------------------------------------
  // Filters, levels and formats
  // ---------------------------------------------------------------------------

  datatype Filtro = Sobel | Roberts | Canny | Gaussiano | Bilateral | Media | Mediana

  /** The name each filter uses in its route, its `filtro` field and its archive name. */
  function NomeFiltro(f: Filtro): string {
    match f
    case Sobel => "sobel"
    case Roberts => "roberts"
    case Canny => "canny"
    case Gaussiano => "gaussiano"
    case Bilateral => "bilateral"
    case Media => "media"
    case Mediana => "mediana"
  }

  lemma NomeFiltroInjective(f: Filtro, g: Filtro)
    ensures NomeFiltro(f) == NomeFiltro(g) ==> f == g
  {
  }

  /** `NivelFiltro`: the path parameter admits only 1, 2 and 3. */
  type NivelFiltro = n: int | 1 <= n <= 3 witness 1

  /** `FormatoImagem`. */
  datatype FormatoImagem = Png | Jpeg | Jpg

  function ValorFormato(f: FormatoImagem): string {
    match f
    case Png => "png"
    case Jpeg => "jpeg"
    case Jpg => "jpg"
  }

  /**
   * For every output format, the JSON form and the archive form hand the
   * encoder the same extension (only the JSON form sets a JPEG quality).
   * The archive's entry names are stated by `CriarZipResposta`.
   */
  lemma FormatsAgreeOnCodec(f: FormatoImagem)
    ensures CodecZip(ValorFormato(f)).extension == CodecBase64(ValorFormato(f)).extension
    ensures f != Png <==> MimeType(ValorFormato(f)) == "image/jpeg"
  {
    assert Lower("jpeg") == "jpeg";
    assert Lower("jpg") == "jpg";
    assert Lower("png") == "png";
  }

  /** The filter a custom parameter set belongs to. */
  function FiltroDe(p: Parametros): (f: Filtro)
    ensures f != Sobel && f != Roberts
  {
    match p
    case OfGaussiano(_) => Gaussiano
    case OfBilateral(_) => Bilateral
    case OfMedia(_) => Media
    case OfMediana(_) => Mediana
    case OfCanny(_) => Canny
  }

  /** What a level endpoint applies. Sobel and Roberts take no parameters and ignore the level. */
  function FiltrarNivel(f: Filtro, img: Raster.Image, nivel: NivelFiltro): (r: Raster.Image)
    ensures Raster.Height(r) == Raster.Height(img) && Raster.Width(r) == Raster.Width(img)
    ensures f in {Sobel, Roberts, Canny} ==> Raster.Ndim(r) == 2
    ensures f !in {Sobel, Roberts, Canny} ==> Raster.Ndim(r) == Raster.Ndim(img)
  {
    match f
    case Sobel => BordaSobel(img)
    case Roberts => BordaRoberts(img)
    case Canny => AplicarCannyNivel(img, nivel)
    case Gaussiano => AplicarGaussianoNivel(img, nivel)
    case Bilateral => AplicarBilateralNivel(img, nivel)
    case Media => AplicarMediaNivel(img, nivel)
    case Mediana => AplicarMedianaNivel(img, nivel)
  }

  /** What a custom endpoint applies: its filter with the submitted parameters. */
  function FiltrarCustom(img: Raster.Image, p: Parametros): (r: Raster.Image)
    ensures Raster.Height(r) == Raster.Height(img) && Raster.Width(r) == Raster.Width(img)
    ensures FiltroDe(p) == Canny ==> Raster.Ndim(r) == 2
    ensures FiltroDe(p) != Canny ==> Raster.Ndim(r) == Raster.Ndim(img)
  {
    match p
    case OfGaussiano(g) => FiltroGaussiano(img, g.kernelWidth, g.kernelHeight, g.sigma)
    case OfBilateral(b) => FiltroBilateral(img, b.d, b.sigmaCor, b.sigmaEspaco)
    case OfMedia(m) => FiltroMedia(img, m.kernelWidth, m.kernelHeight)
    case OfMediana(m) => FiltroMediana(img, m.tamanho)
    case OfCanny(c) => BordaCanny(img, c.limiar1, c.limiar2, c.tamanhoAbertura, c.aplicarBlur)
  }

  /** The `parametros` a level endpoint reports: the preset of that level, none for Sobel and Roberts. */
  function ParametrosDoNivel(f: Filtro, nivel: NivelFiltro): (p: Option<Parametros>)
    ensures p.None? <==> f == Sobel || f == Roberts
    ensures p.Some? ==> FiltroDe(p.value) == f
  {
    match f
    case Sobel => None
    case Roberts => None
    case Canny => Some(OfCanny(NiveisCanny[nivel]))
    case Gaussiano => Some(OfGaussiano(NiveisGaussiano[nivel]))
    case Bilateral => Some(OfBilateral(NiveisBilateral[nivel]))
    case Media => Some(OfMedia(NiveisMedia[nivel]))
    case Mediana => Some(OfMediana(NiveisMediana[nivel]))
  }

  /**
   * The parameters a level endpoint reports are the ones it applied: running
   * the custom form of the filter with them gives the same call.
   */
  lemma ReportedPresetReproducesFilter(f: Filtro, img: Raster.Image, nivel: NivelFiltro)
    requires f != Sobel && f != Roberts
    ensures FiltrarNivel(f, img, nivel) == FiltrarCustom(img, ParametrosDoNivel(f, nivel).value)
  {
    match f
    case Gaussiano => GaussianPresetsOdd();
    case Mediana => MedianaAndBilateralPresetShape();
    case _ =>
  }

  /** The reported presets satisfy their schemas. */
  lemma ReportedPresetIsSchemaValid(f: Filtro, nivel: NivelFiltro)
    ensures ParametrosDoNivel(f, nivel).Some? ==> ParametrosValidos(ParametrosDoNivel(f, nivel).value)
  {
    PresetsSatisfySchemas();
  }

  /** Sobel and Roberts give the same result whatever the level. */
  lemma SobelRobertsIgnoreLevel(img: Raster.Image, a: NivelFiltro, b: NivelFiltro)
    ensures FiltrarNivel(Sobel, img, a) == FiltrarNivel(Sobel, img, b)
    ensures FiltrarNivel(Roberts, img, a) == FiltrarNivel(Roberts, img, b)
  {
  }

  /**
   * A custom endpoint reports the parameters as submitted: for an even
   * Gaussian or median size the reported value is one below the applied one.
   */
  lemma CustomReportsSubmittedSize(
    img: Raster.Image, k: int, arquivo: Option<Upload>, formato: FormatoImagem, tempoMs: real, encode: Encoder)
    requires k % 2 == 0
    ensures FiltrarCustom(img, OfGaussiano(GaussianoParams(k, k, 0.0))) == Raster.GaussianBlur(img, k + 1, k + 1, 0.0)
    ensures FiltrarCustom(img, OfMediana(MedianaParams(k))) == Raster.MedianBlur(img, k + 1)
    ensures var r := EndpointCustom(OfGaussiano(GaussianoParams(k, k, 0.0)), arquivo, formato, tempoMs, encode);
      r.Success? ==> r.value.parametros == Some(OfGaussiano(GaussianoParams(k, k, 0.0)))
    ensures var r := EndpointCustom(OfMediana(MedianaParams(k)), arquivo, formato, tempoMs, encode);
      r.Success? ==> r.value.parametros == Some(OfMediana(MedianaParams(k)))
  {
  }

  // ---------------------------------------------------------------------------
  // JSON endpoints
  // ---------------------------------------------------------------------------

  /**
   * The body every JSON endpoint shares: the upload is processed, filtered,
   * and the original and then the filtered raster are encoded; the first
   * failure is the one raised.
   */
  function Responder(
    arquivo: Option<Upload>, filtrar: Raster.Image -> Raster.Image, formato: FormatoImagem, tempoMs: real,
    filtro: string, nivel: Option<int>, parametros: Option<Parametros>, encode: Encoder)
    : (r: Result<RespostaFiltroJSON, HttpError>)
    ensures var up := ProcessarImagemUpload(arquivo);
      && (up.Failure? ==> r == Failure(up.error))
      && (up.Success? ==>
            var orig := ImagemParaBase64(up.value, ValorFormato(formato), encode);
            var filt := ImagemParaBase64(filtrar(up.value), ValorFormato(formato), encode);
            && (orig.Failure? ==> r == Failure(orig.error))
            && (orig.Success? && filt.Failure? ==> r == Failure(filt.error))
            && (r.Success? <==> orig.Success? && filt.Success?)
            && (r.Success? ==>
                  r.value == RespostaFiltroJSON(orig.value, filt.value, tempoMs, filtro, nivel, parametros)))
  {
    match ProcessarImagemUpload(arquivo)
    case Failure(e) => Failure(e)
    case Success(img) =>
      var filtrada := filtrar(img);
      match ImagemParaBase64(img, ValorFormato(formato), encode)
      case Failure(e) => Failure(e)
      case Success(original) =>
        match ImagemParaBase64(filtrada, ValorFormato(formato), encode)
        case Failure(e) => Failure(e)
        case Success(filtradaB64) =>
          Success(RespostaFiltroJSON(original, filtradaB64, tempoMs, filtro, nivel, parametros))
  }

  /** `POST /filtros/{filtro}/{nivel}`. */
  function EndpointNivel(
    f: Filtro, nivel: NivelFiltro, arquivo: Option<Upload>, formato: FormatoImagem, tempoMs: real, encode: Encoder)
    : (r: Result<RespostaFiltroJSON, HttpError>)
    ensures r.Success? ==> (r.value.filtro == NomeFiltro(f) && r.value.nivel == Some(nivel as int)
      && r.value.parametros == ParametrosDoNivel(f, nivel))
    ensures ProcessarImagemUpload(arquivo).Failure? ==> r == Failure(ProcessarImagemUpload(arquivo).error)
    ensures var up := ProcessarImagemUpload(arquivo);
      up.Success? ==>
        var orig := ImagemParaBase64(up.value, ValorFormato(formato), encode);
        var filt := ImagemParaBase64(FiltrarNivel(f, up.value, nivel), ValorFormato(formato), encode);
        && (r.Success? <==> orig.Success? && filt.Success?)
        && (r.Success? ==> r.value.imagemOriginal == orig.value && r.value.imagemFiltrada == filt.value)
  {
    Responder(arquivo, img => FiltrarNivel(f, img, nivel), formato, tempoMs, NomeFiltro(f), Some(nivel as int),
              ParametrosDoNivel(f, nivel), encode)
  }

  /** `POST /filtros/{filtro}/customizado`. */
  function EndpointCustom(
    p: Parametros, arquivo: Option<Upload>, formato: FormatoImagem, tempoMs: real, encode: Encoder)
    : (r: Result<RespostaFiltroJSON, HttpError>)
    ensures r.Success? ==> (r.value.filtro == NomeFiltro(FiltroDe(p)) && r.value.nivel.None?
      && r.value.parametros == Some(p))
    ensures ProcessarImagemUpload(arquivo).Failure? ==> r == Failure(ProcessarImagemUpload(arquivo).error)
    ensures var up := ProcessarImagemUpload(arquivo);
      up.Success? ==>
        var orig := ImagemParaBase64(up.value, ValorFormato(formato), encode);
        var filt := ImagemParaBase64(FiltrarCustom(up.value, p), ValorFormato(formato), encode);
        && (r.Success? <==> orig.Success? && filt.Success?)
        && (r.Success? ==> r.value.imagemOriginal == orig.value && r.value.imagemFiltrada == filt.value)
  {
    Responder(arquivo, img => FiltrarCustom(img, p), formato, tempoMs, NomeFiltro(FiltroDe(p)), None, Some(p), encode)
  }

  // ---------------------------------------------------------------------------
  // Download endpoints
  // ---------------------------------------------------------------------------

  /** The `metadados` dictionary written as `info.json`. */
  datatype Metadados = Metadados(
    tempoMs: real, filtro: string, nivel: Option<int>, parametros: Option<Parametros>, descricao: string)

  function DescricaoNivel(f: Filtro): string {
    match f
    case Sobel => "Detector de bordas Sobel"
    case Roberts => "Detector de bordas Roberts"
    case Canny => "Detector de bordas Canny"
    case Gaussiano => "Filtro Gaussiano (blur)"
    case Bilateral => "Filtro Bilateral (preserva bordas)"
    case Media => "Filtro de Média (blur uniforme)"
    case Mediana => "Filtro de Mediana (remove ruído sal e pimenta)"
  }

  function DescricaoCustom(f: Filtro): string
    requires f != Sobel && f != Roberts
  {
    match f
    case Canny => "Detector de bordas Canny com parâmetros customizados"
    case Gaussiano => "Filtro Gaussiano com parâmetros customizados"
    case Bilateral => "Filtro Bilateral com parâmetros customizados"
    case Media => "Filtro de Média com parâmetros customizados"
    case Mediana => "Filtro de Mediana com parâmetros customizados"
  }

  /** The `descricao` of a level download tells the filter apart. */
  lemma DescricaoNivelInjective(f: Filtro, g: Filtro)
    ensures DescricaoNivel(f) == DescricaoNivel(g) ==> f == g
  {
  }

  /** `FileResponse(caminho, media_type="application/zip", filename=...)`. */
  datatype FileResponse = FileResponse(path: string, mediaType: string, filename: string)

  /**
   * `POST /filtros/{filtro}/{nivel}/download`: the archive is named after the
   * level, and the name offered to the client is the name on disk.
   */
  method DownloadNivel(
    f: Filtro, nivel: NivelFiltro, arquivo: Option<Upload>, formato: FormatoImagem, tempoMs: real,
    encode: Encoder, dumps: Dumper<Metadados>, render: int -> string)
    returns (r: Result<FileResponse, HttpError>, zip: ZipArquivo?)
    ensures ProcessarImagemUpload(arquivo).Failure? ==> r == Failure(ProcessarImagemUpload(arquivo).error) && zip == null
    ensures var up := ProcessarImagemUpload(arquivo);
      up.Success? ==>
        var fmt := ValorFormato(formato);
        var o := encode(up.value, CodecZip(fmt));
        var g := encode(FiltrarNivel(f, up.value, nivel), CodecZip(fmt));
        var d := dumps(Metadados(tempoMs, NomeFiltro(f), Some(nivel as int), ParametrosDoNivel(f, nivel),
                                 DescricaoNivel(f)));
        var nome := NomeZip(NomeFiltro(f), Some(nivel as int), render);
        && zip != null && fresh(zip) && zip.caminho == CaminhoTemp(nome)
        && (r.Success? <==> o.Encoded? && g.Encoded? && d.Success?)
        && (r.Success? ==> (r.value == FileResponse(zip.caminho, "application/zip", nome)
              && zip.entradas == [("original." + fmt, o.bytes), ("filtrada." + fmt, g.bytes), ("info.json", d.value)]))
        && (!o.Encoded? ==> r == Failure(ZipFailure(o, "Falha ao codificar imagem original")) && zip.entradas == [])
        && (o.Encoded? && !g.Encoded? ==>
              r == Failure(ZipFailure(g, "Falha ao codificar imagem filtrada"))
              && zip.entradas == [("original." + fmt, o.bytes)])
        && (o.Encoded? && g.Encoded? && d.Failure? ==>
              r == Failure(ZipErro(d.error))
              && zip.entradas == [("original." + fmt, o.bytes), ("filtrada." + fmt, g.bytes)])
  {
    zip := null;
    var up := ProcessarImagemUpload(arquivo);
    if up.Failure? {
      return Failure(up.error), zip;
    }
    var img := up.value;
    var filtrada := FiltrarNivel(f, img, nivel);
    var metadados := Metadados(tempoMs, NomeFiltro(f), Some(nivel as int), ParametrosDoNivel(f, nivel),
                               DescricaoNivel(f));
    var caminho, z := CriarZipResposta(img, filtrada, metadados, NomeFiltro(f), Some(nivel as int),
                                       ValorFormato(formato), encode, dumps, render);
    zip := z;
    if caminho.Failure? {
      return Failure(caminho.error), zip;
    }
    r := Success(FileResponse(caminho.value, "application/zip", NomeZip(NomeFiltro(f), Some(nivel as int), render)));
  }

  /**
   * `POST /filtros/{filtro}/customizado/download`: the archive is created
   * under the name `<filtro>_customizado` with no level, so the archive helper
   * appends its own `_customizado` to it; the name offered to the client is
   * spelled without the repetition.
   */
  method DownloadCustom(
    p: Parametros, arquivo: Option<Upload>, formato: FormatoImagem, tempoMs: real,
    encode: Encoder, dumps: Dumper<Metadados>, render: int -> string)
    returns (r: Result<FileResponse, HttpError>, zip: ZipArquivo?)
    ensures ProcessarImagemUpload(arquivo).Failure? ==> r == Failure(ProcessarImagemUpload(arquivo).error) && zip == null
    ensures var up := ProcessarImagemUpload(arquivo);
      up.Success? ==>
        var f := FiltroDe(p);
        var fmt := ValorFormato(formato);
        var o := encode(up.value, CodecZip(fmt));
        var g := encode(FiltrarCustom(up.value, p), CodecZip(fmt));
        var d := dumps(Metadados(tempoMs, NomeFiltro(f), None, Some(p), DescricaoCustom(f)));
        && zip != null && fresh(zip)
        && zip.caminho == CaminhoTemp(NomeZip(NomeFiltro(f) + "_customizado", None, render))
        && (r.Success? <==> o.Encoded? && g.Encoded? && d.Success?)
        && (r.Success? ==> (r.value == FileResponse(zip.caminho, "application/zip", NomeZip(NomeFiltro(f), None, render))
              && zip.entradas == [("original." + fmt, o.bytes), ("filtrada." + fmt, g.bytes), ("info.json", d.value)]))
        && (!o.Encoded? ==> r == Failure(ZipFailure(o, "Falha ao codificar imagem original")) && zip.entradas == [])
        && (o.Encoded? && !g.Encoded? ==>
              r == Failure(ZipFailure(g, "Falha ao codificar imagem filtrada"))
              && zip.entradas == [("original." + fmt, o.bytes)])
        && (o.Encoded? && g.Encoded? && d.Failure? ==>
              r == Failure(ZipErro(d.error))
              && zip.entradas == [("original." + fmt, o.bytes), ("filtrada." + fmt, g.bytes)])
  {
    zip := null;
    var up := ProcessarImagemUpload(arquivo);
    if up.Failure? {
      return Failure(up.error), zip;
    }
    var f := FiltroDe(p);
    var img := up.value;
    var filtrada := FiltrarCustom(img, p);
    var metadados := Metadados(tempoMs, NomeFiltro(f), None, Some(p), DescricaoCustom(f));
    var caminho, z := CriarZipResposta(img, filtrada, metadados, NomeFiltro(f) + "_customizado", None,
                                       ValorFormato(formato), encode, dumps, render);
    zip := z;
    if caminho.Failure? {
      return Failure(caminho.error), zip;
    }
    r := Success(FileResponse(caminho.value, "application/zip", NomeZip(NomeFiltro(f), None, render)));
  }

  /** For every custom download, the offered name differs from the archive's name on disk. */
  lemma CustomDownloadNameDiffers(f: Filtro, render: int -> string)
    ensures NomeZip(NomeFiltro(f), None, render) != NomeZip(NomeFiltro(f) + "_customizado", None, render)
    ensures CaminhoTemp(NomeZip(NomeFiltro(f), None, render))
         != CaminhoTemp(NomeZip(NomeFiltro(f) + "_customizado", None, render))
  {
    assert |NomeZip(NomeFiltro(f), None, render)| < |NomeZip(NomeFiltro(f) + "_customizado", None, render)|;
  }

  // ---------------------------------------------------------------------------
  // Root endpoint
  // ---------------------------------------------------------------------------

  datatype Info = Info(
    mensagem: string, versao: string, documentacao: string,
    filtrosDisponiveis: seq<string>, niveis: seq<int>, endpointsCustomizados: bool)

  const TodosFiltros: seq<Filtro> := [Sobel, Roberts, Canny, Gaussiano, Bilateral, Media, Mediana]

  /** `GET /`. */
  function Raiz(): Info {
    Info("API de Filtros de Imagem", "1.0.0", "/docs",
         ["sobel", "roberts", "canny", "gaussiano", "bilateral", "media", "mediana"], [1, 2, 3], true)
  }

  /** The root listing names every filter exactly once and every level of `NivelFiltro`. */
  lemma RaizListsEverything()
    ensures |Raiz().filtrosDisponiveis| == |TodosFiltros|
    ensures forall i :: 0 <= i < |TodosFiltros| ==> Raiz().filtrosDisponiveis[i] == NomeFiltro(TodosFiltros[i])
    ensures forall f: Filtro :: NomeFiltro(f) in Raiz().filtrosDisponiveis
    ensures forall n: int :: n in Raiz().niveis <==> 1 <= n <= 3
  {
  }
}

=== FILE: Raster.dfy ===
/**
 * A raster as the chain of library calls that produced it. The pixel
 * transforms of OpenCV and scikit-image are not modelled; each call is a
 * constructor that records its input and its arguments, so the model can say
 * which call was made, in which order and with which parameters.
 */
module Raster {
  import opened Wrappers

  datatype Image =
    | Source(height: nat, width: nat, tag: nat)  // cv2.imdecode(..., IMREAD_COLOR): BGR, 3 channels
    | BgrToGray(src: Image)                      // cv2.cvtColor(src, COLOR_BGR2GRAY)
    | GrayToBgr(src: Image)                      // cv2.cvtColor(src, COLOR_GRAY2BGR)
    | GaussianBlur(src: Image, kernelWidth: int, kernelHeight: int, sigma: real)
    | BilateralFilter(src: Image, d: int, sigmaColor: int, sigmaSpace: int)
    | BoxBlur(src: Image, kernelWidth: int, kernelHeight: int)
    | MedianBlur(src: Image, ksize: int)
    | CannyEdges(src: Image, threshold1: int, threshold2: int, apertureSize: int)
    | SobelMagnitude(src: Image)                 // hypot(sobel_h, sobel_v), scaled to 0..255
    | RobertsMagnitude(src: Image)               // roberts, scaled to 0..255

  /** `len(img.shape)`: 3 for a colour raster, 2 for a single-channel one. */
  function Ndim(img: Image): (n: nat)
    ensures n == 2 || n == 3
  {
    match img
    case Source(_, _, _) => 3
    case BgrToGray(_) => 2
    case GrayToBgr(_) => 3
    case GaussianBlur(src, _, _, _) => Ndim(src)
    case BilateralFilter(src, _, _, _) => Ndim(src)
    case BoxBlur(src, _, _) => Ndim(src)
    case MedianBlur(src, _) => Ndim(src)
    case CannyEdges(_, _, _, _) => 2
    case SobelMagnitude(_) => 2
    case RobertsMagnitude(_) => 2
  }

  /** `img.shape[0]`; every call here keeps the number of rows. */
  function Height(img: Image): nat {
    if img.Source? then img.height else Height(img.src)
  }

  /** `img.shape[1]`; every call here keeps the number of columns. */
  function Width(img: Image): nat {
    if img.Source? then img.width else Width(img.src)
  }

  /** The kind of one library call. */
  datatype Call = ToGray | ToBgr | Gaussian | Bilateral | Box | Median | Canny | Sobel | Roberts

  function CallOf(img: Image): Call
    requires !img.Source?
  {
    match img
    case BgrToGray(_) => ToGray
    case GrayToBgr(_) => ToBgr
    case GaussianBlur(_, _, _, _) => Gaussian
    case BilateralFilter(_, _, _, _) => Bilateral
    case BoxBlur(_, _, _) => Box
    case MedianBlur(_, _) => Median
    case CannyEdges(_, _, _, _) => Canny
    case SobelMagnitude(_) => Sobel
    case RobertsMagnitude(_) => Roberts
  }

  /** The calls that lead from `base` to `img`, first call first; None when `img` is not built on `base`. */
  function CallsFrom(img: Image, base: Image): Option<seq<Call>>
    decreases img
  {
    if img == base then Some([])
    else if img.Source? then None
    else
      match CallsFrom(img.src, base)
      case None => None
      case Some(calls) => Some(calls + [CallOf(img)])
  }

  /** The number of library calls stacked on the decoded source. */
  function Depth(img: Image): nat {
    if img.Source? then 0 else 1 + Depth(img.src)
  }

  /** A call chain from `base` to `img` has one entry per call between them. */
  lemma {:induction false} CallsFromLength(img: Image, base: Image)
    requires CallsFrom(img, base).Some?
    ensures Depth(img) == Depth(base) + |CallsFrom(img, base).value|
  {
    if img != base {
      CallsFromLength(img.src, base);
    }
  }

  /** One more call on top of a chain from `base` extends that chain by the call. */
  lemma CallsFromStep(img: Image, base: Image)
    requires !img.Source? && CallsFrom(img.src, base).Some?
    ensures CallsFrom(img, base) == Some(CallsFrom(img.src, base).value + [CallOf(img)])
  {
    CallsFromLength(img.src, base);
  }
}

=== FILE: Text.dfy ===
/**
 * Character-string helpers with the meaning Python gives them:
 * `str(int)`, ASCII `str.lower()`, `str.join`, prefix and suffix tests.
 */
module Text {
  import opened Wrappers

  predicate IsDigit(c: char) { '0' <= c <= '9' }

  function DigitChar(d: int): (c: char)
    requires 0 <= d < 10
    ensures IsDigit(c) && c as int - '0' as int == d
  {
    ('0' as int + d) as char
  }

  /** Decimal digits of a natural number, most significant first, no leading zeros. */
  function Digits(n: nat): (s: string)
    ensures |s| >= 1
    ensures forall i :: 0 <= i < |s| ==> IsDigit(s[i])
    ensures n >= 10 ==> s[0] != '0'
    decreases n
  {
    if n < 10 then [DigitChar(n)] else Digits(n / 10) + [DigitChar(n % 10)]
  }

  /** Python's `str(i)` for an integer. */
  function Show(i: int): (s: string)
    ensures |s| >= 1
    ensures i >= 0 <==> IsDigit(s[0])
  {
    if i < 0 then "-" + Digits(-i) else Digits(i)
  }

  /** The value of a non-empty run of decimal digits. */
  function DigitsValue(s: string): nat
    requires forall i :: 0 <= i < |s| ==> IsDigit(s[i])
  {
    if |s| == 0 then 0
    else
      assert IsDigit(s[|s| - 1]);
      DigitsValue(s[..|s| - 1]) * 10 + (s[|s| - 1] as int - '0' as int)
  }

  /** Python's `int(s)` restricted to an optional minus sign followed by digits. */
  function ParseInt(s: string): Option<int> {
    if |s| > 0 && s[0] == '-' then
      if |s| > 1 && forall i :: 1 <= i < |s| ==> IsDigit(s[i]) then
        Some(0 - DigitsValue(s[1..]) as int)
      else None
    else if |s| > 0 && forall i :: 0 <= i < |s| ==> IsDigit(s[i]) then Some(DigitsValue(s))
    else None
  }

  lemma {:induction false} DigitsValueOfDigits(n: nat)
    ensures DigitsValue(Digits(n)) == n
    decreases n
  {
    if n >= 10 {
      var s := Digits(n);
      assert s[..|s| - 1] == Digits(n / 10);
      DigitsValueOfDigits(n / 10);
    }
  }

  /** `str` is injective on integers: the rendering can be parsed back. */
  lemma ParseShow(i: int)
    ensures ParseInt(Show(i)) == Some(i)
  {
    var s := Show(i);
    if i < 0 {
      var d := Digits(-i);
      assert s == "-" + d;
      assert s[1..] == d;
      assert forall k :: 1 <= k < |s| ==> s[k] == d[k - 1];
      DigitsValueOfDigits(-i);
    } else {
      assert s == Digits(i);
      DigitsValueOfDigits(i);
    }
  }

  lemma ShowInjective(i: int, j: int)
    ensures Show(i) == Show(j) <==> i == j
  {
    ParseShow(i);
    ParseShow(j);
  }

  /** Python's `str.lower()` on the ASCII range; every other character is kept. */
  function LowerChar(c: char): (d: char)
    ensures 'A' <= c <= 'Z' ==> d as int == c as int + 32
    ensures !('A' <= c <= 'Z') ==> d == c
  {
    if 'A' <= c <= 'Z' then (c as int + 32) as char else c
  }

  function Lower(s: string): (r: string)
    ensures |r| == |s|
    ensures forall i :: 0 <= i < |s| ==> r[i] == LowerChar(s[i])
  {
    seq(|s|, i requires 0 <= i < |s| => LowerChar(s[i]))
  }

  lemma LowerIdempotent(s: string)
    ensures Lower(Lower(s)) == Lower(s)
  {
  }

  predicate StartsWith(s: string, prefix: string) {
    |prefix| <= |s| && s[..|prefix|] == prefix
  }

  predicate EndsWith(s: string, suffix: string) {
    |suffix| <= |s| && s[|s| - |suffix|..] == suffix
  }

  /** Lowering commutes with dropping the last character. */
  lemma LowerPrefix(s: string)
    requires |s| > 0
    ensures Lower(s)[..|s| - 1] == Lower(s[..|s| - 1])
  {
  }

  /** Lowering one more character appends that character lowered. */
  lemma LowerSnoc(s: string, c: char)
    ensures Lower(s + [c]) == Lower(s) + [LowerChar(c)]
  {
    assert forall i :: 0 <= i < |s| ==> (s + [c])[i] == s[i];
  }

  /** A concatenation starts with its first part and ends with its last. */
  lemma AffixesOfConcat(a: string, b: string, c: string)
    ensures StartsWith(a + b + c, a) && EndsWith(a + b + c, c)
  {
    var s := a + b + c;
    assert s[..|a|] == a;
    assert s[|s| - |c|..] == c;
  }

  /** Python's `sep.join(parts)`. */
  function Join(sep: string, parts: seq<string>): (r: string)
    ensures |parts| == 1 ==> r == parts[0]
    decreases |parts|
  {
    if |parts| == 0 then ""
    else if |parts| == 1 then parts[0]
    else Join(sep, parts[..|parts| - 1]) + sep + parts[|parts| - 1]
  }

  /** Appending a part extends the joined text by the separator and that part, and nothing else. */
  lemma JoinSnoc(sep: string, parts: seq<string>, x: string)
    ensures Join(sep, parts + [x]) == if parts == [] then x else Join(sep, parts) + sep + x
  {
    assert (parts + [x])[..|parts|] == parts;
  }
}

=== FILE: Utilitarios.dfy ===
/**
 * Upload acceptance, grayscale conversion, data-URI construction and archive
 * assembly (src/filtros/utilitarios.py). The image codecs, `json.dumps` and
 * the archive container are parameters or abstract values: the model states
 * which of them is called, with what, and what is done with the result.
 */
module Utilitarios {
  import opened Wrappers
  import opened Text
  import opened Http
  import opened Raster
  import Base64

  // ---------------------------------------------------------------------------
  // Upload acceptance (`processar_imagem_upload`)
  // ---------------------------------------------------------------------------

  /** What `cv2.imdecode(bytes, IMREAD_COLOR)` does with the uploaded bytes. */
  datatype DecodeOutcome =
    | Decoded(height: nat, width: nat, tag: nat)  // a BGR raster of that shape
    | NotAnImage                                  // returns None
    | DecodeRaised(reason: string)                // raises

  /** What `await arquivo.read()` does. */
  datatype ReadOutcome =
    | ReadRaised(reason: string)
    | Content(length: nat, decode: DecodeOutcome)

  /** An uploaded file: its declared name ("" when absent) and what reading and decoding it give. */
  datatype Upload = Upload(filename: string, read: ReadOutcome)

  const ExtensoesValidas: seq<string> := [".jpg", ".jpeg", ".png"]

  /** 10 MiB. */
  const MaxUploadBytes: nat := 10 * 1024 * 1024

  const MinDimension: nat := 10

  /** Whether the last path component of `q` (the text after its last '/') has a character other than '.'. */
  predicate ComponentHasNonDot(q: string)
    decreases |q|
  {
    |q| > 0 && q[|q| - 1] != '/' && (q[|q| - 1] != '.' || ComponentHasNonDot(q[..|q| - 1]))
  }

  /**
   * `os.path.splitext(p)[1]` for POSIX paths: the text from the last '.' of
   * the last path component, provided that component has something other than
   * dots before that '.' (so ".png" and "a/..png"'s leading dots are not an
   * extension); "" otherwise. Read from the right: characters are collected
   * until the last '.', and a '/' met first means there is no extension.
   */
  function SplitextExt(p: string): (ext: string)
    ensures ext == [] || (ext[0] == '.' && EndsWith(p, ext))
    decreases |p|
  {
    if |p| == 0 then ""
    else
      var c := p[|p| - 1];
      if c == '/' then ""
      else if c == '.' then (if ComponentHasNonDot(p[..|p| - 1]) then "." else "")
      else
        var e := SplitextExt(p[..|p| - 1]);
        if e == [] then "" else e + [c]
  }

  /** `os.path.splitext(arquivo.filename)[1].lower()`. */
  function Extensao(filename: string): (e: string)
    ensures e == [] || (e[0] == '.' && |e| <= |filename|)
    ensures Lower(e) == e
  {
    LowerIdempotent(SplitextExt(filename));
    Lower(SplitextExt(filename))
  }

  /** The checks of `processar_imagem_upload`, in the order they run. */
  datatype UploadFault =
    | NoFile | UnsupportedFormat | ReadFailed | EmptyFile | TooLarge | DecodeFailed | Undecodable | TooSmall

  const UploadCheckOrder: seq<UploadFault> :=
    [NoFile, UnsupportedFormat, ReadFailed, EmptyFile, TooLarge, DecodeFailed, Undecodable, TooSmall]

  /** Whether the upload fails the given check, judged on its own. */
  predicate Violates(arquivo: Option<Upload>, fault: UploadFault) {
    match fault
    case NoFile => arquivo.None? || arquivo.value.filename == ""
    case UnsupportedFormat => arquivo.Some? && Extensao(arquivo.value.filename) !in ExtensoesValidas
    case ReadFailed => arquivo.Some? && arquivo.value.read.ReadRaised?
    case EmptyFile => arquivo.Some? && arquivo.value.read.Content? && arquivo.value.read.length == 0
    case TooLarge => arquivo.Some? && arquivo.value.read.Content? && arquivo.value.read.length > MaxUploadBytes
    case DecodeFailed =>
      arquivo.Some? && arquivo.value.read.Content? && arquivo.value.read.decode.DecodeRaised?
    case Undecodable =>
      arquivo.Some? && arquivo.value.read.Content? && arquivo.value.read.decode.NotAnImage?
    case TooSmall =>
      arquivo.Some? && arquivo.value.read.Content? && arquivo.value.read.decode.Decoded?
      && (arquivo.value.read.decode.height < MinDimension || arquivo.value.read.decode.width < MinDimension)
  }

  /** The status each check raises: 413 for the size limit, 500 for unexpected exceptions, 400 otherwise. */
  function FaultStatus(fault: UploadFault): int {
    match fault
    case TooLarge => 413
    case ReadFailed => 500
    case DecodeFailed => 500
    case _ => 400
  }

  /**
   * Python's `f"{num / den:.2f}"` for a quotient that is exact in binary
   * floating point: the nearest hundredth, ties to even.
   */
  function FixedTwo(num: nat, den: nat): string
    requires den > 0
  {
    var c := Centesimos(num, den);
    Show(c / 100) + "." + [DigitChar(c % 100 / 10), DigitChar(c % 10)]
  }

  function Abs(x: int): nat {
    if x < 0 then -x else x
  }

  /** The number of hundredths `FixedTwo` prints: the nearest to num/den, and the even one on a tie. */
  function Centesimos(num: nat, den: nat): (c: int)
    requires den > 0
    ensures 2 * Abs(c * den - num * 100) <= den
    ensures 2 * Abs(c * den - num * 100) == den ==> c % 2 == 0
  {
    var x := num * 100;
    var q, rem := x / den, x % den;
    var c := if 2 * rem > den || (2 * rem == den && q % 2 == 1) then q + 1 else q;
    NearestOfTwo(x, den, q, rem, c);
    c
  }

  /**
   * With x = q * den + rem, rounding up exactly when the remainder is past
   * half of den, or is half of it and q is odd, picks the nearer of q and
   * q + 1, and the even one on a tie.
   */
  lemma NearestOfTwo(x: int, den: int, q: int, rem: int, c: int)
    requires den > 0 && x == q * den + rem && 0 <= rem < den
    requires c == if 2 * rem > den || (2 * rem == den && q % 2 == 1) then q + 1 else q
    ensures 2 * Abs(c * den - x) <= den
    ensures 2 * Abs(c * den - x) == den ==> c % 2 == 0
  {
    if c == q + 1 {
      assert c * den == q * den + den;
    }
  }

  /** The detail text of each check; fields the fault does not concern are read with harmless defaults. */
  function FaultDetail(arquivo: Option<Upload>, fault: UploadFault): string {
    var name := if arquivo.Some? then arquivo.value.filename else "";
    var length := if arquivo.Some? && arquivo.value.read.Content? then arquivo.value.read.length else 0;
    var reason :=
      if arquivo.Some? && arquivo.value.read.ReadRaised? then arquivo.value.read.reason
      else if arquivo.Some? && arquivo.value.read.Content? && arquivo.value.read.decode.DecodeRaised?
      then arquivo.value.read.decode.reason
      else "";
    var (h, w) :=
      if arquivo.Some? && arquivo.value.read.Content? && arquivo.value.read.decode.Decoded?
      then (arquivo.value.read.decode.height, arquivo.value.read.decode.width)
      else (0, 0);
    match fault
    case NoFile => "Nenhum arquivo foi enviado"
    case UnsupportedFormat =>
      "Formato de arquivo não suportado '" + Extensao(name) + "'. Formatos aceitos: " + Join(", ", ExtensoesValidas)
    case EmptyFile => "O arquivo enviado está vazio"
    case TooLarge => "Arquivo muito grande (" + FixedTwo(length, 1024 * 1024) + "MB). Tamanho máximo: 10MB"
    case Undecodable =>
      "Não foi possível decodificar a imagem. O arquivo pode estar corrompido ou não ser uma imagem válida."
    case TooSmall => "Imagem muito pequena (" + Show(w) + "x" + Show(h) + "). Dimensões mínimas: 10x10 pixels"
    case ReadFailed => "Erro ao processar upload da imagem: " + reason
    case DecodeFailed => "Erro ao processar upload da imagem: " + reason
  }

  function Rejection(arquivo: Option<Upload>, fault: UploadFault): HttpError {
    HttpError(FaultStatus(fault), FaultDetail(arquivo, fault))
  }

  function ViolatedBy(arquivo: Option<Upload>): UploadFault -> bool {
    (f: UploadFault) => Violates(arquivo, f)
  }

  /** The first failing upload check, if any, when the checks run in `UploadCheckOrder`. */
  function FirstUploadFault(arquivo: Option<Upload>): Option<UploadFault> {
    FirstWhere(UploadCheckOrder, ViolatedBy(arquivo))
  }

  /** `len(conteudo) / (1024 * 1024) > 10`: exact in floating point, since the divisor is a power of two. */
  function ExcedeTamanho(length: nat): (r: bool)
    ensures r <==> length > MaxUploadBytes
  {
    (length as real) / 1048576.0 > 10.0
  }

  /**
   * The checks of `processar_imagem_upload` as they run: each one either
   * stops the upload with its fault or lets the next one run; an accepted
   * upload is the decoded 3-channel raster.
   */
  function ChecarUpload(arquivo: Option<Upload>): (r: Result<Image, UploadFault>)
    ensures r.Success? ==> (Ndim(r.value) == 3
      && Height(r.value) >= MinDimension && Width(r.value) >= MinDimension)
    ensures r.Success? ==> (arquivo.Some? && arquivo.value.read.Content?
      && arquivo.value.read.decode.Decoded?
      && r.value == Source(arquivo.value.read.decode.height, arquivo.value.read.decode.width,
                           arquivo.value.read.decode.tag))
    ensures r.Failure? ==> Violates(arquivo, r.error)
  {
    if arquivo.None? || arquivo.value.filename == "" then
      Failure(NoFile)
    else if Extensao(arquivo.value.filename) !in ExtensoesValidas then
      Failure(UnsupportedFormat)
    else
      match arquivo.value.read
      case ReadRaised(_) => Failure(ReadFailed)
      case Content(length, decode) =>
        if length == 0 then
          Failure(EmptyFile)
        else if ExcedeTamanho(length) then
          Failure(TooLarge)
        else
          match decode
          case DecodeRaised(_) => Failure(DecodeFailed)
          case NotAnImage => Failure(Undecodable)
          case Decoded(h, w, tag) =>
            if h < 10 || w < 10 then Failure(TooSmall)
            else Success(Source(h, w, tag))
  }

  /** `processar_imagem_upload`: a failed check is raised with its status and detail. */
  function ProcessarImagemUpload(arquivo: Option<Upload>): (r: Result<Image, HttpError>)
    ensures r.Success? <==> ChecarUpload(arquivo).Success?
    ensures r.Success? ==> r.value == ChecarUpload(arquivo).value
    ensures r.Failure? ==> r.error == Rejection(arquivo, ChecarUpload(arquivo).error)
  {
    match ChecarUpload(arquivo)
    case Success(img) => Success(img)
    case Failure(fault) => Failure(Rejection(arquivo, fault))
  }

  /**
   * The upload is accepted exactly when no check fails, and a rejected upload
   * reports the first failing check in `UploadCheckOrder`, with its status and detail.
   */
  lemma UploadReportsFirstFault(arquivo: Option<Upload>)
    ensures var r := ProcessarImagemUpload(arquivo);
      && (r.Success? <==> FirstUploadFault(arquivo).None?)
      && (r.Failure? ==> r.error == Rejection(arquivo, FirstUploadFault(arquivo).value))
  {
    FirstUploadFaultCases(arquivo);
    var r := ChecarUpload(arquivo);
    var f := FirstUploadFault(arquivo);
    if Violates(arquivo, NoFile) {
      assert f == Some(NoFile) && r == Failure(NoFile);
    } else if Violates(arquivo, UnsupportedFormat) {
      assert f == Some(UnsupportedFormat) && r == Failure(UnsupportedFormat);
    } else {
      var read := arquivo.value.read;
      if read.ReadRaised? {
        assert f == Some(ReadFailed) && r == Failure(ReadFailed);
      } else if read.length == 0 {
        assert f == Some(EmptyFile) && r == Failure(EmptyFile);
      } else if read.length > MaxUploadBytes {
        assert f == Some(TooLarge) && r == Failure(TooLarge);
      } else if read.decode.DecodeRaised? {
        assert f == Some(DecodeFailed) && r == Failure(DecodeFailed);
      } else if read.decode.NotAnImage? {
        assert f == Some(Undecodable) && r == Failure(Undecodable);
      } else if read.decode.height < 10 || read.decode.width < 10 {
        assert f == Some(TooSmall) && r == Failure(TooSmall);
      } else {
        assert f == None && r.Success?;
      }
    }
  }

  /** `FirstUploadFault` spelled out as the cascade of checks. */
  lemma FirstUploadFaultCases(arquivo: Option<Upload>)
    ensures FirstUploadFault(arquivo) ==
      if Violates(arquivo, NoFile) then Some(NoFile)
      else if Violates(arquivo, UnsupportedFormat) then Some(UnsupportedFormat)
      else if Violates(arquivo, ReadFailed) then Some(ReadFailed)
      else if Violates(arquivo, EmptyFile) then Some(EmptyFile)
      else if Violates(arquivo, TooLarge) then Some(TooLarge)
      else if Violates(arquivo, DecodeFailed) then Some(DecodeFailed)
      else if Violates(arquivo, Undecodable) then Some(Undecodable)
      else if Violates(arquivo, TooSmall) then Some(TooSmall)
      else None
  {
    var broken := ViolatedBy(arquivo);
    var order := UploadCheckOrder;
    var k :=
      if broken(NoFile) then 0
      else if broken(UnsupportedFormat) then 1
      else if broken(ReadFailed) then 2
      else if broken(EmptyFile) then 3
      else if broken(TooLarge) then 4
      else if broken(DecodeFailed) then 5
      else if broken(Undecodable) then 6
      else if broken(TooSmall) then 7
      else 8;
    if k < 8 {
      FirstWhereAt(order, broken, k);
    } else {
      assert forall i :: 0 <= i < |order| ==> !broken(order[i]);
    }
  }

  /**
   * Every rejection is 400 except the size limit (413) and unexpected
   * exceptions (500); `UploadReportsFirstFault` makes the failing check the
   * first one in `UploadCheckOrder`.
   */
  lemma UploadStatuses(arquivo: Option<Upload>)
    ensures var r := ProcessarImagemUpload(arquivo);
      r.Failure? ==>
        && (r.error.status == 413 <==> ChecarUpload(arquivo).error == TooLarge)
        && (r.error.status == 500 <==> ChecarUpload(arquivo).error in {ReadFailed, DecodeFailed})
        && r.error.status in {400, 413, 500}
  {
  }

  /** The size limit is inclusive: exactly 10 MiB passes it, one byte more is rejected with 413. */
  lemma SizeLimitBoundary(name: string, tag: nat)
    requires Extensao(name) in ExtensoesValidas
    ensures ProcessarImagemUpload(Some(Upload(name, Content(MaxUploadBytes, Decoded(10, 10, tag)))))
      == Success(Source(10, 10, tag))
    ensures ProcessarImagemUpload(Some(Upload(name, Content(MaxUploadBytes + 1, Decoded(10, 10, tag))))).error.status
      == 413
  {
    assert name != "";
  }

  lemma {:induction false} ComponentHasNonDotLower(q: string)
    ensures ComponentHasNonDot(Lower(q)) == ComponentHasNonDot(q)
    decreases |q|
  {
    if |q| > 0 {
      assert Lower(q)[..|q| - 1] == Lower(q[..|q| - 1]);
      ComponentHasNonDotLower(q[..|q| - 1]);
    }
  }

  /** Lowering a path and then splitting off its extension is the same as the other way round. */
  lemma {:induction false} SplitextLower(p: string)
    ensures SplitextExt(Lower(p)) == Lower(SplitextExt(p))
    decreases |p|
  {
    if |p| > 0 {
      var init, c := p[..|p| - 1], p[|p| - 1];
      LowerPrefix(p);
      if c == '/' || c == '.' {
        ComponentHasNonDotLower(init);
        assert Lower("") == "";
        assert Lower(".") == ".";
      } else {
        SplitextLower(init);
        var e := SplitextExt(init);
        if e == [] {
          assert Lower("") == "";
        } else {
          LowerSnoc(e, c);
        }
      }
    }
  }

  /** The extension check is case-insensitive: names equal up to ASCII case are accepted or rejected together. */
  lemma ExtensionCheckIgnoresCase(p: string, q: string)
    requires Lower(p) == Lower(q)
    ensures Extensao(p) == Extensao(q)
    ensures Extensao(p) in ExtensoesValidas <==> Extensao(q) in ExtensoesValidas
  {
    SplitextLower(p);
    SplitextLower(q);
  }

  lemma {:induction false} SplitextOfDottedName(stem: string, ext: string)
    requires stem != [] && stem[|stem| - 1] != '.' && '/' !in stem
    requires '.' !in ext && '/' !in ext
    ensures SplitextExt(stem + "." + ext) == "." + ext
    decreases |ext|
  {
    var p := stem + "." + ext;
    if ext == [] {
      assert p[..|p| - 1] == stem;
    } else {
      var init := ext[..|ext| - 1];
      assert p[..|p| - 1] == stem + "." + init;
      SplitextOfDottedName(stem, init);
      assert p[|p| - 1] == ext[|ext| - 1];
      assert "." + init + [ext[|ext| - 1]] == "." + ext;
    }
  }

  /**
   * A name ending in `.ext`, where `ext` has no dot or slash, has extension
   * `.ext` lowered, provided some character other than '.' precedes that dot
   * in the last path component.
   */
  lemma ExtensionOfDottedName(stem: string, ext: string)
    requires stem != [] && stem[|stem| - 1] != '.' && '/' !in stem
    requires '.' !in ext && '/' !in ext
    ensures Extensao(stem + "." + ext) == Lower("." + ext)
  {
    SplitextOfDottedName(stem, ext);
  }

  lemma {:induction false} SplitextOfDotfile(ext: string)
    requires '.' !in ext && '/' !in ext
    ensures SplitextExt("." + ext) == ""
    decreases |ext|
  {
    var p := "." + ext;
    if ext == [] {
      assert p[..|p| - 1] == "";
    } else {
      assert p[..|p| - 1] == "." + ext[..|ext| - 1];
      SplitextOfDotfile(ext[..|ext| - 1]);
    }
  }

  /** A name whose only dot is its first character (".png") has no extension, so it is rejected. */
  lemma DotfileHasNoExtension(ext: string)
    requires '.' !in ext && '/' !in ext
    ensures Extensao("." + ext) == ""
    ensures Extensao("." + ext) !in ExtensoesValidas
  {
    SplitextOfDotfile(ext);
  }

  // ---------------------------------------------------------------------------
  // Grayscale conversion (`converter_para_cinza`)
  // ---------------------------------------------------------------------------

  /** Converts a 3-dimensional raster to one channel and leaves a 2-dimensional one as it is. */
  function ConverterParaCinza(img: Image): (r: Image)
    ensures Ndim(r) == 2
    ensures Ndim(img) == 2 ==> r == img
    ensures Ndim(img) == 3 ==> CallsFrom(r, img) == Some([ToGray])
    ensures Height(r) == Height(img) && Width(r) == Width(img)
  {
    if Ndim(img) == 3 then
      var r := BgrToGray(img);
      assert CallsFrom(img, img) == Some([]);
      assert [] + [ToGray] == [ToGray];
      r
    else img
  }

  lemma ConverterParaCinzaIdempotent(img: Image)
    ensures ConverterParaCinza(ConverterParaCinza(img)) == ConverterParaCinza(img)
  {
  }

  // ---------------------------------------------------------------------------
  // Encoding and data URIs (`imagem_para_base64`)
  // ---------------------------------------------------------------------------

  /** The arguments of `cv2.imencode` besides the raster: the extension and an optional JPEG quality. */
  datatype Codec = Codec(extension: string, jpegQuality: Option<int>)

  /** What `cv2.imencode` does: success with a buffer, `(False, _)`, or an exception. */
  datatype EncodeOutcome =
    | Encoded(bytes: seq<Base64.byte>)
    | EncoderFalse
    | EncoderRaised(reason: string)

  type Encoder = (Image, Codec) -> EncodeOutcome

  /** Single-channel rasters are expanded to three channels before encoding. */
  function ParaTresCanais(img: Image): (r: Image)
    ensures Ndim(r) == 3
    ensures Ndim(img) == 3 ==> r == img
    ensures Ndim(img) == 2 ==> CallsFrom(r, img) == Some([ToBgr])
    ensures Height(r) == Height(img) && Width(r) == Width(img)
  {
    if Ndim(img) == 2 then
      CallsFromStep(GrayToBgr(img), img);
      assert [] + [ToBgr] == [ToBgr];
      GrayToBgr(img)
    else img
  }

  /** The lowered format names that select JPEG. */
  predicate IsJpegFormat(formato: string) {
    Lower(formato) in ["jpg", "jpeg"]
  }

  function CodecBase64(formato: string): (c: Codec)
    ensures IsJpegFormat(formato) ==> c == Codec(".jpg", Some(95))
    ensures !IsJpegFormat(formato) ==> c == Codec(".png", None)
  {
    if IsJpegFormat(formato) then Codec(".jpg", Some(95)) else Codec(".png", None)
  }

  function MimeType(formato: string): (m: string)
    ensures m == "image/jpeg" <==> IsJpegFormat(formato)
    ensures m == "image/png" <==> !IsJpegFormat(formato)
  {
    if IsJpegFormat(formato) then "image/jpeg" else "image/png"
  }

  /** The `data:` URL header of RFC 2397 for base64 content. */
  function DataUriPrefix(mime: string): string {
    "data:" + mime + ";base64,"
  }

  /**
   * `imagem_para_base64`: the raster, expanded to three channels, is encoded
   * with the codec the lowered format selects, and the buffer is returned as a
   * `data:` URI whose MIME type names that same codec.
   */
  function ImagemParaBase64(img: Image, formato: string, encode: Encoder): (r: Result<string, HttpError>)
    ensures var out := encode(ParaTresCanais(img), CodecBase64(formato));
      && (r.Success? <==> out.Encoded?)
      && (out.Encoded? ==> r.value == DataUri(MimeType(formato), out.bytes))
      && (out.EncoderFalse? ==> r == Failure(HttpError(500, "Erro ao codificar imagem no formato " + formato)))
      && (out.EncoderRaised? ==>
            r == Failure(HttpError(500, "Erro ao converter imagem para base64: " + out.reason)))
  {
    match encode(ParaTresCanais(img), CodecBase64(formato))
    case EncoderFalse => Failure(HttpError(500, "Erro ao codificar imagem no formato " + formato))
    case EncoderRaised(reason) => Failure(HttpError(500, "Erro ao converter imagem para base64: " + reason))
    case Encoded(buffer) => Success(DataUri(MimeType(formato), buffer))
  }

  /**
   * `f"data:{mime};base64,{b64}"`: the payload after the header is padded
   * base64 that decodes back to `bytes`. `Base64.Decode` accepts only the
   * canonical text (`Base64.EncodeDecode`), so the payload is exactly
   * `Base64.Encode(bytes)`.
   */
  function DataUri(mime: string, bytes: seq<Base64.byte>): (uri: string)
    ensures StartsWith(uri, DataUriPrefix(mime))
    ensures Base64.Decode(uri[|DataUriPrefix(mime)|..]) == Some(bytes)
  {
    var prefix := DataUriPrefix(mime);
    var payload := Base64.Encode(bytes);
    var uri := prefix + payload;
    Base64.DecodeEncode(bytes);
    assert uri[|prefix|..] == payload;
    uri
  }

  // ---------------------------------------------------------------------------
  // Archive assembly (`criar_zip_resposta`)
  // ---------------------------------------------------------------------------

  /** The archive file `zipfile.ZipFile(caminho, 'w')` writes: its path and its entries in write order. */
  class ZipArquivo {
    const caminho: string
    var entradas: seq<(string, seq<Base64.byte>)>

    constructor (caminho: string)
      ensures this.caminho == caminho && entradas == []
    {
      this.caminho := caminho;
      entradas := [];
    }

    /** `zipf.writestr(nome, dados)`: appends one entry. */
    method WriteStr(nome: string, dados: seq<Base64.byte>)
      modifies this
      ensures entradas == old(entradas) + [(nome, dados)]
    {
      entradas := entradas + [(nome, dados)];
    }
  }

  /** Python truthiness of the `nivel` argument (None and 0 are false). */
  predicate NivelVerdadeiro(nivel: Option<int>) {
    nivel.Some? && nivel.value != 0
  }

  /**
   * The archive's file name. `render` is how an f-string renders the level
   * value, which depends on the Python version for an int-valued enum.
   */
  function NomeZip(nomeFiltro: string, nivel: Option<int>, render: int -> string): (nome: string)
    ensures StartsWith(nome, "filtro_" + nomeFiltro) && EndsWith(nome, ".zip")
    ensures NivelVerdadeiro(nivel) ==> nome == "filtro_" + nomeFiltro + "_nivel" + render(nivel.value) + ".zip"
    ensures !NivelVerdadeiro(nivel) ==> nome == "filtro_" + nomeFiltro + "_customizado.zip"
  {
    if NivelVerdadeiro(nivel) then "filtro_" + nomeFiltro + "_nivel" + render(nivel.value) + ".zip"
    else "filtro_" + nomeFiltro + "_customizado.zip"
  }

  /** `os.path.join("temp", nome)`. */
  function CaminhoTemp(nome: string): string {
    "temp/" + nome
  }

  /** The codec name handed to `cv2.imencode`: "jpeg" is spelled "jpg", any other format is kept as given. */
  function CodecZip(formato: string): (c: Codec)
    ensures formato in ["jpg", "jpeg"] ==> c.extension == ".jpg"
    ensures formato !in ["jpg", "jpeg"] ==> c.extension == "." + formato
    ensures c.jpegQuality.None?
  {
    Codec("." + (if formato in ["jpg", "jpeg"] then "jpg" else formato), None)
  }

  /** The 500 `criar_zip_resposta` raises for any exception inside it. */
  function ZipErro(reason: string): (e: HttpError)
    ensures e.status == 500 && StartsWith(e.detail, "Erro ao criar arquivo ZIP: ")
  {
    var e := HttpError(500, "Erro ao criar arquivo ZIP: " + reason);
    assert e.detail[..|"Erro ao criar arquivo ZIP: "|] == "Erro ao criar arquivo ZIP: ";
    e
  }

  /** The 500 for an encoder that returned false (`whenFalse`) or raised. */
  function ZipFailure(out: EncodeOutcome, whenFalse: string): HttpError
    requires !out.Encoded?
  {
    ZipErro(if out.EncoderRaised? then out.reason else whenFalse)
  }

  /** What `json.dumps(metadados, ...)` does: the text it returns, or the message of what it raised. */
  type Dumper<-M> = M -> Result<seq<Base64.byte>, string>

  /**
   * `criar_zip_resposta`: opens `temp/<name>` and writes the encoded original,
   * the encoded filtered raster and the metadata, in that order. An encoder
   * or serialiser failure raises 500; the entries written before it stay in
   * the archive.
   */
  method CriarZipResposta<M>(
    imgOriginal: Image, imgFiltrada: Image, metadados: M, nomeFiltro: string, nivel: Option<int>,
    formato: string, encode: Encoder, dumps: Dumper<M>, render: int -> string)
    returns (r: Result<string, HttpError>, zip: ZipArquivo)
    ensures fresh(zip)
    ensures zip.caminho == CaminhoTemp(NomeZip(nomeFiltro, nivel, render))
    ensures var o := encode(imgOriginal, CodecZip(formato));
      var f := encode(imgFiltrada, CodecZip(formato));
      var d := dumps(metadados);
      && (r.Success? <==> o.Encoded? && f.Encoded? && d.Success?)
      && (r.Success? ==> (r.value == zip.caminho
            && zip.entradas == [("original." + formato, o.bytes), ("filtrada." + formato, f.bytes),
                                ("info.json", d.value)]))
      && (!o.Encoded? ==> r == Failure(ZipFailure(o, "Falha ao codificar imagem original")) && zip.entradas == [])
      && (o.Encoded? && !f.Encoded? ==>
            r == Failure(ZipFailure(f, "Falha ao codificar imagem filtrada"))
            && zip.entradas == [("original." + formato, o.bytes)])
      && (o.Encoded? && f.Encoded? && d.Failure? ==>
            r == Failure(ZipErro(d.error))
            && zip.entradas == [("original." + formato, o.bytes), ("filtrada." + formato, f.bytes)])
  {
    var formatoCv2 := if formato in ["jpg", "jpeg"] then "jpg" else formato;
    var extensao := formato;
    var nomeZip;
    if nivel.Some? && nivel.value != 0 {
      nomeZip := "filtro_" + nomeFiltro + "_nivel" + render(nivel.value) + ".zip";
    } else {
      nomeZip := "filtro_" + nomeFiltro + "_customizado.zip";
    }
    zip := new ZipArquivo("temp/" + nomeZip);

    var original := encode(imgOriginal, Codec("." + formatoCv2, None));
    if !original.Encoded? {
      r := Failure(ZipFailure(original, "Falha ao codificar imagem original"));
      return;
    }
    zip.WriteStr("original." + extensao, original.bytes);

    var filtrada := encode(imgFiltrada, Codec("." + formatoCv2, None));
    if !filtrada.Encoded? {
      r := Failure(ZipFailure(filtrada, "Falha ao codificar imagem filtrada"));
      return;
    }
    zip.WriteStr("filtrada." + extensao, filtrada.bytes);

    var infoJson := dumps(metadados);
    if infoJson.Failure? {
      r := Failure(ZipErro(infoJson.error));
      return;
    }
    zip.WriteStr("info.json", infoJson.value);
    r := Success(zip.caminho);
  }

  /**
   * The archive codec spells both "jpeg" and "jpg" as ".jpg"; the entry names,
   * which keep the caller's spelling, are stated by `CriarZipResposta`.
   */
  lemma ZipJpegSpelling()
    ensures CodecZip("jpeg").extension == ".jpg" && CodecZip("jpg").extension == ".jpg"
    ensures CodecZip("png").extension == ".png"
  {
  }
}

=== FILE: Validacao.dfy ===
/**
 * Integer parameter validators (src/validacao.py). Each one is a chain of
 * guards; the first guard that fails raises `HTTPException(400, ...)` and a
 * check that passes returns nothing.
 */
module Validacao {
  import opened Wrappers
  import opened Text
  import opened Http

  const MaxKernel := 99

  /** The tail shared by the range-style messages: the received value as `str` renders it. */
  function Received(v: int): string {
    " (recebido: " + Show(v) + ")"
  }

  /** The three rules a kernel size must satisfy, in the order they are checked. */
  datatype KernelRule = Positive | Odd | AtMostMax

  const KernelCheckOrder: seq<KernelRule> := [Positive, Odd, AtMostMax]

  predicate Breaks(k: int, rule: KernelRule) {
    match rule
    case Positive => k <= 0
    case Odd => k % 2 == 0
    case AtMostMax => k > MaxKernel
  }

  /** The rule a chain of checks in `KernelCheckOrder` reports for `k`, if any. */
  function FirstBroken(k: int): Option<KernelRule> {
    FirstWhere(KernelCheckOrder, (rule: KernelRule) => Breaks(k, rule))
  }

  function KernelMessage(rule: KernelRule, nome: string, k: int): string {
    match rule
    case Positive => nome + " deve ser maior que zero" + Received(k)
    case Odd => nome + " deve ser um número ímpar" + Received(k)
    case AtMostMax => nome + " muito grande. Máximo permitido: 99" + Received(k)
  }

  /** `validar_kernel_impar`: positive, then odd, then at most 99. */
  function ValidarKernelImpar(k: int, nome: string := "kernel"): (r: Outcome<HttpError>)
    ensures r.Pass? <==> 1 <= k <= MaxKernel && k % 2 == 1
    ensures r.Fail? ==> (r.error.status == 400
      && StartsWith(r.error.detail, nome) && EndsWith(r.error.detail, Received(k)))
    ensures r.Fail? ==> (FirstBroken(k).Some?
      && r.error.detail == KernelMessage(FirstBroken(k).value, nome, k))
  {
    if k <= 0 then
      Fail(HttpError(400, nome + " deve ser maior que zero" + Received(k)))
    else if k % 2 == 0 then
      Fail(HttpError(400, nome + " deve ser um número ímpar" + Received(k)))
    else if k > 99 then
      Fail(HttpError(400, nome + " muito grande. Máximo permitido: 99" + Received(k)))
    else
      Pass
  }

  /** 0 breaks two rules and 100 breaks two rules; the earlier rule is the one reported. */
  lemma KernelOrderMatters(nome: string)
    ensures Breaks(0, Positive) && Breaks(0, Odd)
    ensures ValidarKernelImpar(0, nome) == Fail(HttpError(400, KernelMessage(Positive, nome, 0)))
    ensures Breaks(100, Odd) && Breaks(100, AtMostMax)
    ensures ValidarKernelImpar(100, nome) == Fail(HttpError(400, KernelMessage(Odd, nome, 100)))
  {
  }

  /** `validar_intervalo`: both bounds are inclusive. */
  function ValidarIntervalo(valor: int, minimo: int, maximo: int, nome: string): (r: Outcome<HttpError>)
    ensures r.Fail? <==> valor < minimo || valor > maximo
    ensures r.Fail? ==> (r.error.status == 400
      && StartsWith(r.error.detail, nome + " deve estar entre " + Show(minimo) + " e " + Show(maximo))
      && EndsWith(r.error.detail, Received(valor)))
  {
    if valor < minimo || valor > maximo then
      Fail(HttpError(400, nome + " deve estar entre " + Show(minimo) + " e " + Show(maximo) + Received(valor)))
    else
      Pass
  }

  const AberturasCanny: seq<int> := [3, 5, 7]

  /** `validar_tamanho_abertura_canny`: exactly the apertures 3, 5 and 7. */
  function ValidarTamanhoAberturaCanny(tamanho: int): (r: Outcome<HttpError>)
    ensures r.Pass? <==> 3 <= tamanho <= 7 && tamanho % 2 == 1
    ensures r.Fail? ==> (r.error.status == 400
      && EndsWith(r.error.detail, Received(tamanho)))
  {
    if tamanho !in AberturasCanny then
      Fail(HttpError(400, "tamanho_abertura deve ser 3, 5 ou 7" + Received(tamanho)))
    else
      Pass
  }

  /** `validar_ordem_limiares_canny`: the second threshold must be strictly larger. */
  function ValidarOrdemLimiaresCanny(limiar1: int, limiar2: int): (r: Outcome<HttpError>)
    ensures r.Fail? <==> limiar2 <= limiar1
    ensures r.Fail? ==> (r.error.status == 400
      && StartsWith(r.error.detail, "limiar2 (" + Show(limiar2) + ")")
      && EndsWith(r.error.detail, "limiar1 (" + Show(limiar1) + ")"))
  {
    if limiar2 <= limiar1 then
      var head, tail := "limiar2 (" + Show(limiar2) + ")", "limiar1 (" + Show(limiar1) + ")";
      AffixesOfConcat(head, " deve ser maior que ", tail);
      Fail(HttpError(400, head + " deve ser maior que " + tail))
    else
      Pass
  }

  /** Equal thresholds are rejected. */
  lemma EqualThresholdsRejected(t: int)
    ensures ValidarOrdemLimiaresCanny(t, t).Fail?
  {
  }

  /**
   * Every failure message names the received value, and distinct values give
   * distinct messages: the value can be read back from the message tail.
   */
  lemma {:induction false} ReceivedIsInjective(v: int, w: int)
    ensures Received(v) == Received(w) <==> v == w
  {
    var p := " (recebido: ";
    if Received(v) == Received(w) {
      var a, b := Received(v), Received(w);
      assert a[|p|..|a| - 1] == Show(v);
      assert b[|p|..|b| - 1] == Show(w);
      ShowInjective(v, w);
    }
  }
}

=== FILE: Wrappers.dfy ===
/** Failure-carrying values shared by every module of the model. */
module Wrappers {

  datatype Option<+T> = None | Some(value: T)

  /** The value of a computation that either succeeds or raises. */
  datatype Result<+R, +E> = Success(value: R) | Failure(error: E)

  /** A check that either passes (and returns nothing) or raises. */
  datatype Outcome<+E> = Pass | Fail(error: E)

  /**
   * The first element of `order` that satisfies `broken`: the failure a chain
   * of checks run in that order reports.
   */
  function FirstWhere<T(==)>(order: seq<T>, broken: T -> bool): (r: Option<T>)
    ensures r.None? <==> forall i :: 0 <= i < |order| ==> !broken(order[i])
    ensures r.Some? ==> broken(r.value)
    ensures r.Some? ==> exists i :: (0 <= i < |order| && order[i] == r.value
                                     && forall j :: 0 <= j < i ==> !broken(order[j]))
    decreases |order|
  {
    if |order| == 0 then None
    else if broken(order[0]) then Some(order[0])
    else
      var r := FirstWhere(order[1..], broken);
      if r.Some? then
        var i :| 0 <= i < |order[1..]| && order[1..][i] == r.value
                 && forall j :: 0 <= j < i ==> !broken(order[1..][j]);
        assert order[i + 1] == r.value;
        assert forall j :: 0 <= j < i + 1 ==> !broken(order[j]);
        r
      else r
  }

  /** A failing element with no failing element before it is the one `FirstWhere` reports. */
  lemma {:induction false} FirstWhereAt<T>(order: seq<T>, broken: T -> bool, i: int)
    requires 0 <= i < |order| && broken(order[i])
    requires forall j :: 0 <= j < i ==> !broken(order[j])
    ensures FirstWhere(order, broken) == Some(order[i])
    decreases i
  {
    if i > 0 {
      FirstWhereAt(order[1..], broken, i - 1);
    }
  }
}
